=== FILE: README.md ===
# ngx_pq_module configuration logic in Dafny

`ngx_pq_module` is an nginx module that talks to PostgreSQL through libpq. This
project models the three parts of its configuration-time logic that are plain string
and integer processing, and proves what they promise:

- **Query templates** (`pq_query`, `pq_prepare`, `pq_execute`). The text of a query
  is scanned once, left to right, into literal runs and `$name` variable references.
  A `pq_prepare` or `pq_execute` statement name that starts with `$` is looked up as a
  request variable; any other name is kept as literal text. Modules `Template` and
  `Query`.
- **Connection specifications** (`pq_server`, `pq_pass`). The directive's arguments
  are handled in stages:
  - backend modifiers (`weight=`, `max_conns=`, `max_fails=`, `fail_timeout=`,
    `backup`, `down`) and `error_verbosity=` are consumed;
  - the other arguments are joined into a libpq connection string in two passes
    (length, then copy);
  - the string goes to libpq's parser;
  - the parsed options are scanned for `connect_timeout`, `hostaddr`, `host` and
    `port`;
  - the address is resolved;
  - a keyword/value slot array is allocated from a count and then filled.

  Modules `Modifiers`, `Conninfo`, `Slots` and `Connect`.
- **Buffer checks** at the end of merging a location's configuration: `pq_buffers`,
  `pq_buffer_size`, `pq_busy_buffers_size` and `pq_next_upstream`. Module `Buffers`.

Shared pieces:

- `Results`: `Option` and `Result`.
- `Chars`: character classes, ASCII case folding, and `ngx_atoi` as "non-empty, all
  decimal digits".
- `Errors`: every configuration error and its message.

Collaborators outside the file are function-valued parameters:

- libpq's `PQconninfoParse` (`Env.parse`);
- `ngx_parse_time` (`ParseTime`);
- `ngx_parse_url` (`Env.parseUrl`), which gives a family and addresses, or an error;
- `ngx_http_get_variable_index` (`VariableIndex`).

The connection builder exists twice:
- `Connect.BuildConnect` is a pure function;
- `Connect.PassConnect` is a method that follows the C code's loops. It writes the
  connection string into an array sized by the length pass. It fills a slot array of
  exactly the counted size, and every write is proved in bounds. Its contract equates
  its result with `BuildConnect`.

Behaviour worth noting:

- The literal run before a name is emitted even when it is empty, so `$id` gives
  `""` and then `id`.
- A parser diagnostic loses exactly its last byte (ngx_pq_module.c:279). Other
  trailing control characters are kept.
- The allocated slot count, 4 + (other set options, `port` included) + [`host` set
  and the family is not Unix], bounds the fill only when at most one `host` is set
  or the socket is a Unix one. libpq's distinct keywords guarantee that
  (`Slots.LayoutFits`, `Connect.BuildFits`).
- When neither `hostaddr` nor `host` is set, the C `host` pointer becomes the default
  url `unix:///run/postgresql`. On a Unix socket slot 0 then carries that url as
  `host`. On another family it counts as a set `host`.
- Slot 0 is the one value the builder does not copy: it points into the parser's
  option array (lines 297-298, 342), which `PQconninfoFree` releases at line 371. The
  default url is a static string, so only a `hostaddr`, or a `host` on a Unix socket,
  is affected. The model treats slot 0 as a value; see "## Left out".
- The "too large" busy-size message says "less than", but the check at line 134
  accepts a busy size equal to (num − 1)·size.

## Model

| member | source | states |
|---|---|---|
| Template.Lex | ngx_pq_module.c:413-446 | Rendering the pieces, with `$` before each name, gives back the text, and the pieces are well-formed |
| Template.LexRoundTrip | ngx_pq_module.c:417-446 | From any scan position inside the current run, the pieces the scan emits render to the whole remaining text |
| Template.LexWellFormed | ngx_pq_module.c:417-446 | The scan emits a well-formed segmentation: runs free of `$` except as their last byte, each name maximal and preceded by its run, looked up exactly when no `$` follows |
| Template.NameEnd | ngx_pq_module.c:425 | The name run ends at the first byte, or the end of text, that is not `[0-9A-Za-z_]`, and every byte before it is one |
| Template.LexUnique | ngx_pq_module.c:417-446 | Every well-formed segmentation is what the scanner produces for its own text, so the scan is the one well-formed segmentation of each text |
| Template.WellFormedPieces | ngx_pq_module.c:418-446 | Each literal has at most one `$`, only last; an empty literal only comes right before a name; each name is a non-empty `[A-Za-z_][0-9A-Za-z_]*`, maximal, preceded by a literal, and looked up iff the next byte is not `$` |
| Template.LexNoDollar | ngx_pq_module.c:441-446 | A text without `$` scans to one literal equal to it, or to nothing when empty |
| Template.SkipLiteral | ngx_pq_module.c:417-418 | Bytes other than `$` do not change where the current run is cut |
| Query.ParseStatementName | ngx_pq_module.c:405-410 | The name fails iff it starts with `$` and the rest is no variable; a `$` name yields that variable's index, any other is kept as literal text; `pq_execute` applies the same rule at 157-161 |
| Query.Resolve | ngx_pq_module.c:431 | Resolving succeeds iff every name marked for lookup is a known variable, and then gives one command per piece, the marked ones bound to their index and the others left unbound |
| Query.ResolveDetermined | ngx_pq_module.c:419-438 | Each piece determines its command, so any command list matching the pieces one by one is the resolution |
| Query.ResolvedText | ngx_pq_module.c:417-446 | The commands of a resolved scan spell the query text again, `$` before each reference |
| Query.Compile | ngx_pq_module.c:403-413 | The corrected directive compile: `pq_prepare` without query text is refused; the statement name is present iff the directive has one; the commands spell the argument that holds the query text |
| Query.PrepareNameOnlyOverruns | ngx_pq_module.c:405-413 | As written, `pq_prepare name`, which the directive table admits, reads its query text at an index equal to the argument count, past the last argument, where the corrected `Query.Compile` returns the missing-query-text error |
| Query.CompileTemplate | ngx_pq_module.c:413-446 | A query text compiles iff every name the scanner marks is a known variable, and then into the resolution of its scan |
| Query.LeadingName | ngx_pq_module.c:418-431 | A text that is one reference `$name` compiles to an empty literal and then the name bound to its index |
| Query.LexNameBeforeDollar | ngx_pq_module.c:417-446 | `$a$$1`, for any name start `a` and digit `1`, scans to `""`, `a` (not looked up), `$`, `$`, `1` |
| Query.NameBeforeDollar | ngx_pq_module.c:431 | In `$a$$1` the name `a` stays unbound whatever the variable registry holds, and a `$` before a digit stays literal |
| Modifiers.DefaultServer | ngx_pq_module.c:483-486 | The fresh backend record has weight 1, max_fails 1, fail_timeout 10 and all else zero |
| Modifiers.ApplyToken | ngx_pq_module.c:193-254 | One argument succeeds iff it is a valid modifier or no modifier at all; a non-modifier changes nothing; the backend record is kept iff present; each failure names its cause: a non-numeric weight, a zero weight, a non-numeric max_conns or max_fails, an unparsable fail_timeout, a verbosity outside the table |
| Modifiers.ApplyModifiers | ngx_pq_module.c:191-254 | The modifier loop keeps the backend record iff there was one, and never changes its addresses or name |
| Modifiers.PrefixesExclusive | ngx_pq_module.c:194-242 | A token matches at most one of the modifier prefixes and keywords, so the order of the tests does not matter |
| Modifiers.StepEffects | ngx_pq_module.c:193-254 | A valid token sets exactly the field its prefix names (weight, max_conns, max_fails from the number; fail_timeout from seconds; backup/down set; verbosity from the table) and nothing else: the record's addresses and name stay as they were |
| Modifiers.ModifiersSucceed | ngx_pq_module.c:192-254 | The loop succeeds iff every token is valid: weight a positive number, max_conns and max_fails numbers, fail_timeout a time, error_verbosity one of four names; server modifiers only with a backend record |
| Modifiers.LastValuesValid | ngx_pq_module.c:194-252 | In a valid token list the last value of each modifier is itself valid (a positive weight, numbers, a time, a table name) |
| Modifiers.ModifiersLastWins | ngx_pq_module.c:191-254 | Every modifier that names a value keeps the last one given, and backup/down stay set once given |
| Modifiers.VerbosityLastWins | ngx_pq_module.c:191-253 | The verbosity is DEFAULT unless `error_verbosity=` is given, and then the last given value, with or without a backend record |
| Modifiers.ServerFieldsLastWins | ngx_pq_module.c:194-242 | Each backend field takes its last given value, or keeps the record's own |
| Modifiers.NumberLastWins | ngx_pq_module.c:194-224 | weight, max_conns and max_fails each take the number in their last token |
| Modifiers.FailTimeoutLastWins | ngx_pq_module.c:225-234 | fail_timeout takes the seconds its last token parses to |
| Modifiers.FlagsStaySet | ngx_pq_module.c:235-242 | backup and down are set iff the token appears or was already set |
| Modifiers.ExampleVerbosityTerse | ngx_pq_module.c:244-253 | `error_verbosity=terse` selects TERSE and leaves the backend record alone |
| Modifiers.ExampleVerbosityBogus | ngx_pq_module.c:250-251 | A value outside the four-name table is rejected |
| Chars.DecimalRoundTrip | ngx_pq_module.c:326-327 | The port printed with `%i` in the url log line reads back as the same number |
| Errors.Message | ngx_pq_module.c:278-330 | A malformed-options error logs the parser's diagnostic as it stands; a url error logs `ngx_parse_url(<url>:<port>` and ends with ` and <reason>` when the resolver gave one |
| Chars.Atoi | ngx_pq_module.c:321-322 | A port, weight or count parses iff it is non-empty and all decimal digits |
| Conninfo.LengthMatches | ngx_pq_module.c:255-273 | The length pass one counts equals the length of the string pass two writes |
| Conninfo.CountConninfo | ngx_pq_module.c:192-257 | The first loop's total equals the length of the connection string the second loop writes |
| Conninfo.WriteConninfo | ngx_pq_module.c:258-273 | The second loop writes into the `len + 1` buffer exactly the connection string and its NUL, with no write out of bounds |
| Conninfo.ConninfoIsSpaceJoin | ngx_pq_module.c:255-273 | The connection string is the kept arguments in order, separated by single spaces, after one leading space when argument 1 was a modifier and a later argument is kept |
| Conninfo.KeptFirst | ngx_pq_module.c:255 | When argument 1 is not a modifier it is the first kept argument, with no space before it |
| Slots.ClassifyChain | ngx_pq_module.c:295-299 | The keyword table classifies exactly as the C's chain of case-insensitive comparisons |
| Slots.LastValue | ngx_pq_module.c:293-299 | The recorded value of a kind is one of the options' values |
| Slots.LastValueFound | ngx_pq_module.c:293-299 | A kind has a recorded value iff some set option has that kind |
| Slots.LastValueIsLast | ngx_pq_module.c:293-299 | The recorded value is that of a set option of the kind after which no option of the kind follows |
| Slots.ScanOptions | ngx_pq_module.c:286-302 | The scan loop records the last `connect_timeout`, `hostaddr`, `host` and `port` and counts 2 plus every set option other than those (`port` included, `fallback_application_name` skipped) |
| Slots.PassThrough | ngx_pq_module.c:353-367 | The copied options are set, never `connect_timeout`, `fallback_application_name` or `hostaddr`, and no more than the options |
| Slots.PassThroughMembers | ngx_pq_module.c:353-367 | A slot is copied iff some option that passes the fill loop's tests produced it |
| Slots.PassThroughCount | ngx_pq_module.c:293-359 | The fill loop copies the scan's count of other options, plus each set `host` unless the socket is a Unix one |
| Slots.CountPositive | ngx_pq_module.c:298 | Some option of a kind is set iff the scan records a value for it |
| Slots.LayoutShape | ngx_pq_module.c:340-370 | The filled array is the address slot, `connect_timeout`, `fallback_application_name=nginx`, the copied options in parser order, then the terminator |
| Slots.Layout | ngx_pq_module.c:340-370 | The filled array has four slots more than there are copied options; the last is the terminator and every slot before it is a keyword/value pair |
| Slots.SlotCount | ngx_pq_module.c:290-337 | Plus one per copied `host` entry on a network socket, the allocated count equals the layout's length plus one for a set `host` pointer on a network socket |
| Slots.WriteFixed | ngx_pq_module.c:340-352 | Slot 0 is `host` with the host pointer on a Unix socket, else `hostaddr` with its option; slot 1 is `connect_timeout`, given or "60"; slot 2 is `fallback_application_name=nginx` |
| Slots.FallbackOnlyAtTwo | ngx_pq_module.c:350-356 | Only slot 2 names `fallback_application_name`, so a user-supplied one never reaches libpq |
| Slots.LayoutFits | ngx_pq_module.c:336-370 | The allocated count holds every slot the fill writes iff the socket is a Unix one or at most one `host` is set |
| Slots.TwoHostsOverrun | ngx_pq_module.c:336-359 | Two set `host` options on a network address overrun the allocation |
| Slots.DistinctOneHost | ngx_pq_module.c:293-299 | Without repeated keywords, each named kind, `host` among them, is set at most once |
| Slots.FillOptions | ngx_pq_module.c:353-367 | The fill loop appends exactly the copied options and leaves `client_encoding` at the last copied one |
| Slots.FillSlots | ngx_pq_module.c:338-370 | Filled into an allocation of the counted size, the arrays are the layout, and `client_encoding` is the last set one |
| Connect.ParseError | ngx_pq_module.c:276-284 | A failed parse reports libpq's diagnostic minus its last byte when there is a non-empty one, else the fixed message |
| Connect.TimeoutOf | ngx_pq_module.c:303-307 | The timeout is 60000 ms without `connect_timeout`, else its parsed milliseconds; an unparsable one is an error |
| Connect.HostPointer | ngx_pq_module.c:308-318 | The `host` pointer is the option when set, `unix:///run/postgresql` when neither `hostaddr` nor `host` is set, and unset when only `hostaddr` is |
| Connect.UrlOf | ngx_pq_module.c:308-318 | The url is `hostaddr` when set; otherwise it is the string the `host` pointer holds, the option or the default socket |
| Connect.PortCast | ngx_pq_module.c:323 | The port is cut to 16 bits: below 65536, and congruent to the parsed number modulo 65536, so unchanged below 65536 |
| Connect.PortOf | ngx_pq_module.c:320-324 | The port is 5432 without `port`, an error iff it is not a number, and below 65536 |
| Connect.BuildConnect | ngx_pq_module.c:181-374 | A built specification keeps the backend record iff there was one, sets its addresses and name to the resolution and url, parsed its connection string, and fails with the first bad modifier; its verbosity and timeout are stated by `Connect.BuildChoices` |
| Connect.BuildChoices | ngx_pq_module.c:191-370 | The verbosity is DEFAULT unless an `error_verbosity=` is given, then the last one given; `hostaddr` beats `host`, which beats the default socket; port defaults to 5432, else the number cut to 16 bits; the timeout is 60000 ms, else what `connect_timeout` parses to; slot 0 is `host` on Unix, else `hostaddr`; slot 1 is the given `connect_timeout`, else "60"; slot 2 is `nginx`; the last slot is the terminator; `client_encoding` is the last set one |
| Connect.BuildFits | ngx_pq_module.c:290-370 | The counted allocation bounds the fill iff the socket is Unix or at most one `host` is set, and always under libpq's distinct keywords |
| Connect.PassConnect | ngx_pq_module.c:181-374 | The loops of the C code (length pass, copy pass, scan, count, fill) compute exactly the built specification, every write in bounds |
| Connect.ExampleHostAddrPort | ngx_pq_module.c:297-370 | With `hostaddr` and `port`, the url is the address, the port is the number, the timeout is the default, and `port` is still passed to libpq after the three fixed slots |
| Connect.ExamplePort | ngx_pq_module.c:320-324 | `port=6543` gives port 6543 |
| Connect.ExampleUnixHost | ngx_pq_module.c:312-358 | A lone Unix-socket `host` is the url, slot 0 carries it as `host`, the port is 5432, and it is not passed a second time |
| Connect.ExampleDefaultSocket | ngx_pq_module.c:316-358 | Without `hostaddr` and `host`, the url is `unix:///run/postgresql`, which slot 0 carries as `host` |
| Connect.PqServer | ngx_pq_module.c:482-487 | `pq_server` always produces a backend record |
| Connect.PqPass | ngx_pq_module.c:388 | `pq_pass` never produces one |
| Connect.ServerDefaultsKept | ngx_pq_module.c:483-487 | A built backend record has a positive weight; a field no modifier names keeps 1, 1, 10 or 0; backup and down are set iff given |
| Buffers.Busy | ngx_pq_module.c:132 | The busy size is the configured one, else twice the floor; without wrap-around that is at least the floor, with it below the floor |
| Buffers.Ceiling | ngx_pq_module.c:134 | The most a busy size may be is (num − 1)·size when that fits in 64 bits, and 0 with a single buffer |
| Buffers.Max | ngx_pq_module.c:130-131 | The floor is the larger of `pq_buffer_size` and one buffer |
| Buffers.NextUpstream | ngx_pq_module.c:135 | With `off` in the mask the mask becomes SET and OFF; otherwise it is unchanged |
| Buffers.CheckBuffers | ngx_pq_module.c:129-135 | The checks pass iff there are at least 2 buffers and the busy size (configured, else twice the floor, wrapped to 64 bits) lies between the floor and (num − 1)·size; fewer than 2 buffers gives the count error, else a busy size below the floor gives the too-small error, else one above the ceiling gives the too-large error |
| Buffers.CheckIdempotent | ngx_pq_module.c:129-135 | Checking again with the busy size and mask the checks settled on gives the same outcome |
| Buffers.DefaultBusyAccepted | ngx_pq_module.c:132-134 | Without wrap-around and with the default busy size, the checks pass iff there are at least 2 buffers and twice the floor fits in all buffers but one |
| Buffers.DefaultNeedsThree | ngx_pq_module.c:132-134 | With the default busy size and `pq_buffer_size` no larger than a buffer, at least 3 buffers are needed |
| Buffers.DefaultBusyWraps | ngx_pq_module.c:132-133 | A floor of 2^63 bytes or more wraps the default busy size below the floor, and the check rejects it |

## Left out

- libpq (`PQconninfoParse`, `PQconninfoFree`, `PQfreemem`) is not part of this model. The parser is a function parameter returning an option list or a failure with an optional diagnostic.
- `ngx_parse_url`, name resolution and the address list it builds are I/O; they are a function parameter giving a family and addresses, or an error. What libpq does with the slot array is not modelled.
- `ngx_parse_time` and `ngx_http_get_variable_index` are external grammars and registries, modelled as partial functions.
- `pq_pass` with variables in its argument (`ngx_http_compile_complex_value`, lines 383-386), `ngx_http_upstream_add`, the handler and the `auto_redirect` tweak are registration glue outside this model.
- `ngx_pq_argument_output_loc_conf`, which parses a directive's trailing output arguments, is not defined in the file; the output format is not part of `QueryConf`.
- Pool allocation and its failures, `ngx_pfree`, `ngx_memzero`, array pushes and the "unset then merge" macros (lines 113-128, 136, including the temp path) are memory and macro plumbing; the model uses sequences and treats allocation as always succeeding.
- The directive table, module structures, `create_*_conf` and `pq_log` are registration glue.
- Bind-parameter numbering and request-time query assembly do not exist in this file.
- Slot 0 of the built arrays points into the parser's option array, which line 371 frees before the builder returns (a `hostaddr`, or a `host` on a Unix socket). The model gives slot 0 that option's value and does not model ownership, so it promises nothing about the freed memory. Nothing in this file shows whether slot 0 is rewritten before libpq reads it.
- Chars.Atoi: `ngx_atoi` returns NGX_ERROR on overflow of `ngx_int_t`; the model's numbers are unbounded, so a weight, count or port too large for 63 bits is accepted where the C rejects it.
- Modifiers.ApplyModifiers: `max_conns`, `max_fails` and `fail_timeout` are stored as unbounded naturals; the casts to `ngx_uint_t` and `time_t` are not modelled.
- Connect.TimeoutOf: the timeout is the parser's value as a natural; the cast to `ngx_msec_t` is not modelled.
- The C reads the first byte of a statement name even when it is empty, where it finds the terminating NUL; the model treats an empty name as literal text, which is what the C does with that NUL.

## Findings

| source | as written | input that shows it | evidently intended | confidence | as-written member | corrected member |
|---|---|---|---|---|---|---|
| ngx_pq_module.c:405-413 | `pq_prepare` takes one or more arguments (line 510), and after the statement name it reads the query text from `str[2]` without checking that argument 2 exists | `pq_prepare name;` reads one past the last argument | refuse `pq_prepare` without query text | not executed | Query.PrepareNameOnlyOverruns | Query.Compile |

=== FILE: buffers.dfy ===
/** The buffer checks that end merging a location's configuration (ngx_pq_module.c:
    129-135). Sizes are C `size_t`: 64 bits, arithmetic modulo 2^64. */
module Buffers {
  import opened Results
  import opened Errors

  const SizeModulus: nat := 0x1_0000_0000_0000_0000

  type Size = n: nat | n < SizeModulus

  /** A `size_t` product or sum, wrapped. */
  function Wrap(n: nat): Size {
    n % SizeModulus
  }

  /** `NGX_CONF_BITMASK_SET` and `NGX_HTTP_UPSTREAM_FT_OFF`. */
  const BitmaskSet: bv64 := 1
  const FtOff: bv64 := 0x8000_0000

  /** The merged settings the checks read: `pq_buffers` (count and size),
      `pq_buffer_size`, `pq_busy_buffers_size` (`None` when unset) and the
      `pq_next_upstream` mask. */
  datatype BufferConf = BufferConf(
    num: nat,
    bufSize: Size,
    bufferSize: Size,
    busyConf: Option<Size>,
    nextUpstream: bv64)

  /** What the checks leave: the busy size in force and the mask. */
  datatype Checked = Checked(busy: Size, nextUpstream: bv64)

  function Max(a: Size, b: Size): (m: Size)
    ensures m >= a && m >= b && (m == a || m == b)
  {
    if a < b then b else a
  }

  /** The larger of one buffer and `pq_buffer_size`: the least a busy size may be. */
  function Floor(c: BufferConf): Size {
    Max(c.bufferSize, c.bufSize)
  }

  /** The busy size in force: the configured one, else twice the floor. */
  function Busy(c: BufferConf): (b: Size)
    ensures c.busyConf.Some? ==> b == c.busyConf.value
    ensures c.busyConf.None? && 2 * Floor(c) < SizeModulus ==> b == 2 * Floor(c) && b >= Floor(c)
    ensures c.busyConf.None? && 2 * Floor(c) >= SizeModulus ==> b < Floor(c)
  {
    if c.busyConf.Some? then c.busyConf.value else Wrap(2 * Floor(c))
  }

  /** All buffers but one: the most a busy size may be. */
  function Ceiling(c: BufferConf): (m: Size)
    requires c.num >= 1
    ensures (c.num - 1) * c.bufSize < SizeModulus ==> m == (c.num - 1) * c.bufSize
    ensures c.num == 1 ==> m == 0
  {
    Wrap((c.num - 1) * c.bufSize)
  }

  /** `off` among the next-upstream conditions cancels all the others. */
  function NextUpstream(mask: bv64): (r: bv64)
    ensures r & FtOff == mask & FtOff
    ensures mask & FtOff != 0 ==> r == BitmaskSet | FtOff
    ensures mask & FtOff == 0 ==> r == mask
  {
    if mask & FtOff != 0 then BitmaskSet | FtOff else mask
  }

  function CheckBuffers(c: BufferConf): (r: Result<Checked, Error>)
    ensures r.Ok? <==> c.num >= 2 && Floor(c) <= Busy(c) <= Ceiling(c)
    ensures r.Err? ==> r.error in {TooFewBuffers, BusyBuffersTooSmall, BusyBuffersTooLarge}
    ensures r.Err? && r.error == TooFewBuffers <==> c.num < 2
    ensures r == Err(BusyBuffersTooSmall) <==> c.num >= 2 && Busy(c) < Floor(c)
    ensures r == Err(BusyBuffersTooLarge) <==> c.num >= 2 && Floor(c) <= Busy(c) && Busy(c) > Ceiling(c)
    ensures r.Ok? ==> r.value.busy == Busy(c) && r.value.nextUpstream == NextUpstream(c.nextUpstream)
  {
    if c.num < 2 then Err(TooFewBuffers)
    else
      var size := Floor(c);
      var busy := Busy(c);
      if busy < size then Err(BusyBuffersTooSmall)
      else if busy > Ceiling(c) then Err(BusyBuffersTooLarge)
      else Ok(Checked(busy, NextUpstream(c.nextUpstream)))
  }

  /** Checking again with the busy size and mask the first check settled on gives the
      same outcome: the checks are idempotent. */
  lemma CheckIdempotent(c: BufferConf)
    requires CheckBuffers(c).Ok?
    ensures var v := CheckBuffers(c).value;
      CheckBuffers(c.(busyConf := Some(v.busy), nextUpstream := v.nextUpstream)) == Ok(v)
  {
  }

  /** With the default busy size and no wrap-around, the buffers must hold twice the
      floor in all but one of them. */
  lemma DefaultBusyAccepted(c: BufferConf)
    requires c.busyConf.None?
    requires 2 * Floor(c) < SizeModulus
    requires c.num >= 1 && (c.num - 1) * c.bufSize < SizeModulus
    ensures CheckBuffers(c).Ok? <==> c.num >= 2 && 2 * Floor(c) <= (c.num - 1) * c.bufSize
  {
    assert Wrap(2 * Floor(c)) == 2 * Floor(c);
    assert Wrap((c.num - 1) * c.bufSize) == (c.num - 1) * c.bufSize;
  }

  /** With `pq_buffer_size` no larger than one buffer, that means three buffers at
      least. */
  lemma DefaultNeedsThree(c: BufferConf)
    requires c.busyConf.None?
    requires 2 * Floor(c) < SizeModulus
    requires c.num >= 1 && (c.num - 1) * c.bufSize < SizeModulus
    requires 0 < c.bufSize && c.bufferSize <= c.bufSize
    ensures CheckBuffers(c).Ok? <==> c.num >= 3
  {
    DefaultBusyAccepted(c);
    var n, b := c.num - 1, c.bufSize;
    assert Floor(c) == b;
    if n >= 2 {
      assert n * b >= 2 * b;
    } else if n == 1 {
      assert n * b == b;
    }
  }

  /** A floor of 2^63 bytes or more makes the default busy size wrap below the floor,
      so the check rejects it. */
  lemma DefaultBusyWraps(c: BufferConf)
    requires c.num >= 2 && c.busyConf.None?
    requires 2 * Floor(c) >= SizeModulus
    ensures CheckBuffers(c) == Err(BusyBuffersTooSmall)
  {
  }
}

=== FILE: chars.dfy ===
/** Byte classification and the small string helpers of nginx the module relies on. */
module Chars {
  import opened Results

  predicate IsLower(c: char) { 'a' <= c <= 'z' }

  predicate IsUpper(c: char) { 'A' <= c <= 'Z' }

  predicate IsDigit(c: char) { '0' <= c <= '9' }

  /** A byte that may start a variable name after `$`: a letter or `_`. */
  predicate IsNameStart(c: char) { IsLower(c) || IsUpper(c) || c == '_' }

  /** A byte that may continue a variable name: `[0-9A-Za-z_]`. */
  predicate IsNameChar(c: char) { IsDigit(c) || IsNameStart(c) }

  /** A non-empty identifier whose first byte is a letter or `_`. */
  predicate IsName(s: string) {
    && |s| > 0
    && IsNameStart(s[0])
    && forall i :: 0 <= i < |s| ==> IsNameChar(s[i])
  }

  /** `ngx_tolower`: only ASCII upper-case letters change. */
  function ToLower(c: char): char {
    if IsUpper(c) then (c as int + 32) as char else c
  }

  function Lower(s: string): (r: string)
    ensures |r| == |s|
    ensures forall i :: 0 <= i < |s| ==> r[i] == ToLower(s[i])
  {
    seq(|s|, i requires 0 <= i < |s| => ToLower(s[i]))
  }

  /** `ngx_strcasecmp(a, b) == 0`: equal up to ASCII case. */
  predicate SameKeyword(a: string, b: string) {
    Lower(a) == Lower(b)
  }

  lemma LengthsDiffer(a: string, b: string)
    requires |a| != |b|
    ensures !SameKeyword(a, b)
  {
    assert |Lower(a)| == |a| && |Lower(b)| == |b|;
  }

  lemma FirstBytesDiffer(a: string, b: string)
    requires |a| > 0 && |b| > 0 && ToLower(a[0]) != ToLower(b[0])
    ensures !SameKeyword(a, b)
  {
    assert Lower(a)[0] == ToLower(a[0]) && Lower(b)[0] == ToLower(b[0]);
  }

  /** `s` starts with `p`, as `ngx_strncmp(s, p, |p|) == 0` tests. */
  predicate HasPrefix(p: string, s: string) {
    |p| <= |s| && s[..|p|] == p
  }

  /** `s` starts with `p` and has at least one more byte: the test the directive
      parser uses for `key=value` modifiers. */
  predicate StrictPrefix(p: string, s: string) {
    |s| > |p| && s[..|p|] == p
  }

  /** Non-empty and made only of decimal digits: what `ngx_atoi` accepts. */
  predicate IsNumber(s: string) {
    |s| > 0 && forall i :: 0 <= i < |s| ==> IsDigit(s[i])
  }

  /** The value of a string of decimal digits. */
  function DecimalValue(s: string): nat
    requires forall i :: 0 <= i < |s| ==> IsDigit(s[i])
    decreases |s|
  {
    if s == [] then 0
    else
      assert IsDigit(s[|s| - 1]);
      DecimalValue(s[..|s| - 1]) * 10 + (s[|s| - 1] as int - '0' as int)
  }

  /** The decimal digits of `n`, as `%i` prints a non-negative number. */
  function Decimal(n: nat): (s: string)
    ensures IsNumber(s)
    decreases n
  {
    if n < 10 then [DigitChar(n)] else Decimal(n / 10) + [DigitChar(n % 10)]
  }

  function DigitChar(d: nat): (c: char)
    requires d < 10
    ensures IsDigit(c) && c as int - '0' as int == d
  {
    ('0' as int + d) as char
  }

  /** Printing a number and reading it back with `Atoi` gives the number. */
  lemma {:induction false} DecimalRoundTrip(n: nat)
    ensures Atoi(Decimal(n)) == Some(n)
    decreases n
  {
    var s := Decimal(n);
    if n < 10 {
      assert s[..|s| - 1] == [];
    } else {
      DecimalRoundTrip(n / 10);
      assert s[..|s| - 1] == Decimal(n / 10);
      assert DecimalValue(s) == DecimalValue(Decimal(n / 10)) * 10 + n % 10;
    }
    assert DecimalValue(s) == n;
  }

  /** `ngx_atoi`: the number a digit string denotes, or `None` (NGX_ERROR). */
  function Atoi(s: string): (r: Option<nat>)
    ensures r.Some? <==> IsNumber(s)
  {
    if IsNumber(s) then Some(DecimalValue(s)) else None
  }
}

=== FILE: connect.dfy ===
/** `pq_server` and `pq_pass`: from the directive's arguments to the connection
    specification and, for `pq_server`, the backend record (ngx_pq_module.c:181-374,
    482-487). */
module Connect {
  import opened Results
  import opened Chars
  import opened Errors
  import opened Modifiers
  import opened Conninfo
  import opened Slots

  /** What `PQconninfoParse` returns: the option array, or NULL with an optional
      diagnostic. */
  datatype ParseResult = Parsed(options: seq<ConninfoOption>) | ParseFailed(message: Option<string>)

  /** What `ngx_parse_url` leaves in the url record: the family and the addresses, or
      the failure with its optional reason. */
  datatype UrlResult = Resolved(family: Family, addrs: seq<string>) | Unresolved(reason: Option<string>)

  /** The collaborators outside this model: libpq's parser, nginx's time parser and its
      url parser (which may resolve names). */
  datatype Env = Env(
    parse: string -> ParseResult,
    parseTime: ParseTime,
    parseUrl: (string, nat) -> UrlResult)

  /** Milliseconds, when the string sets no `connect_timeout`. */
  const DefaultTimeout := 60000
  /** The socket used when neither `hostaddr` nor `host` is set. */
  const DefaultUrl := "unix:///run/postgresql"
  /** `DEF_PGPORT`. */
  const DefaultPort := 5432

  /** The module's `ngx_pq_connect_t` as this code leaves it. */
  datatype ConnectSpec = ConnectSpec(
    verbosity: Verbosity,
    timeout: nat,
    url: string,
    port: nat,
    family: Family,
    addrs: seq<string>,
    slots: seq<Slot>,
    clientEncoding: Option<string>)

  datatype Built = Built(connect: ConnectSpec, server: Option<Server>)

  /** The parser's failure: its diagnostic with the last byte (libpq's newline)
      overwritten by NUL, or the fixed message when there is none or it is empty. */
  function ParseError(message: Option<string>): (e: Error)
    ensures e.ConninfoMalformed? <==> message.Some? && message.value != []
    ensures e.ConninfoMalformed? ==> exists c :: message.value == e.diagnostic + [c]
    ensures !e.ConninfoMalformed? ==> e == ConninfoUnparsable
  {
    if message.Some? && |message.value| > 0 then
      var m := message.value;
      assert m == m[..|m| - 1] + [m[|m| - 1]];
      ConninfoMalformed(m[..|m| - 1])
    else ConninfoUnparsable
  }

  /** The connection timeout in milliseconds (ngx_pq_module.c:303-307). */
  function TimeoutOf(connectTimeout: Option<string>, parseTime: ParseTime): (r: Result<nat, Error>)
    ensures connectTimeout.None? ==> r == Ok(DefaultTimeout)
    ensures connectTimeout.Some? ==>
      (r.Ok? <==> parseTime(connectTimeout.value, false).Some?)
      && (r.Ok? ==> r.value == parseTime(connectTimeout.value, false).value)
    ensures r.Err? ==> r.error == ConnectTimeoutInvalid
  {
    if connectTimeout.None? then Ok(DefaultTimeout)
    else match parseTime(connectTimeout.value, false)
      case None => Err(ConnectTimeoutInvalid)
      case Some(n) => Ok(n)
  }

  /** The url handed to `ngx_parse_url`: `hostaddr`, else `host`, else the default
      socket (ngx_pq_module.c:308-318). */
  function UrlOf(hostAddr: Option<string>, host: Option<string>): (u: string)
    ensures hostAddr.Some? ==> u == hostAddr.value
    ensures hostAddr.None? ==> HostPointer(hostAddr, host) == Some(u)
  {
    if hostAddr.Some? then hostAddr.value else if host.Some? then host.value else DefaultUrl
  }

  /** The C `host` pointer after address selection: the default socket stands in when
      neither option is set. */
  function HostPointer(hostAddr: Option<string>, host: Option<string>): (h: Option<string>)
    ensures h.Some? <==> host.Some? || hostAddr.None?
    ensures host.Some? ==> h == host
    ensures hostAddr.None? && host.None? ==> h == Some(DefaultUrl)
  {
    if hostAddr.None? && host.None? then Some(DefaultUrl) else host
  }

  /** The 16-bit `in_port_t` cast of the parsed number. */
  function PortCast(n: nat): (p: nat)
    ensures p < 65536
    ensures n < 65536 ==> p == n
    ensures (n - p) % 65536 == 0
  {
    n % 65536
  }

  /** The default port for `ngx_parse_url` (ngx_pq_module.c:320-324). */
  function PortOf(port: Option<string>): (r: Result<nat, Error>)
    ensures port.None? ==> r == Ok(DefaultPort)
    ensures r.Err? <==> port.Some? && !IsNumber(port.value)
    ensures r.Err? ==> r.error == PortInvalid
    ensures r.Ok? ==> r.value < 65536
  {
    if port.None? then Ok(DefaultPort)
    else match Atoi(port.value)
      case None => Err(PortInvalid)
      case Some(n) => Ok(PortCast(n))
  }

  /** The whole builder. `server` is the backend record for `pq_server` and `None` for
      `pq_pass`; `args[0]` is the directive name. */
  function BuildConnect(args: seq<string>, server: Option<Server>, env: Env): (r: Result<Built, Error>)
    requires |args| >= 1
    ensures r.Ok? ==> (r.value.server.Some? <==> server.Some?)
    ensures r.Ok? ==> env.parse(ConninfoString(args, server.Some?)).Parsed?
    ensures r.Ok? ==> r.value.connect.port < 65536
    ensures r.Ok? && server.Some? ==>
      r.value.server.value.addrs == r.value.connect.addrs && r.value.server.value.name == r.value.connect.url
    ensures ApplyModifiers(args[1..], Settings(server, Default), env.parseTime).Err? ==>
      r == Err(ApplyModifiers(args[1..], Settings(server, Default), env.parseTime).error)
  {
    var st :- ApplyModifiers(args[1..], Settings(server, Default), env.parseTime);
    var opts :- match env.parse(ConninfoString(args, server.Some?))
      case ParseFailed(m) => Err(ParseError(m))
      case Parsed(o) => Ok(o);
    var timeout :- TimeoutOf(LastValue(opts, ConnectTimeout), env.parseTime);
    var hostAddr := LastValue(opts, HostAddr);
    var host := LastValue(opts, Host);
    var url := UrlOf(hostAddr, host);
    var port :- PortOf(LastValue(opts, Port));
    match env.parseUrl(url, port)
    case Unresolved(reason) => Err(UrlInvalid(url, port, reason))
    case Resolved(family, addrs) =>
      var server' := if st.server.Some? then Some(st.server.value.(addrs := addrs, name := url)) else None;
      var slots := Layout(opts, family, HostPointer(hostAddr, host));
      Ok(Built(ConnectSpec(st.verbosity, timeout, url, port, family, addrs, slots, LastValue(opts, ClientEncoding)), server'))
  }

  /** The options the parser returned for the directive's connection string. */
  function OptionsOf(args: seq<string>, server: Option<Server>, env: Env): seq<ConninfoOption>
    requires |args| >= 1
    requires env.parse(ConninfoString(args, server.Some?)).Parsed?
  {
    env.parse(ConninfoString(args, server.Some?)).options
  }

  /** The address precedence, the defaults and the fixed slots of a built specification. */
  lemma BuildChoices(args: seq<string>, server: Option<Server>, env: Env)
    requires |args| >= 1
    requires BuildConnect(args, server, env).Ok?
    ensures var c := BuildConnect(args, server, env).value.connect;
      var opts := OptionsOf(args, server, env);
      var hostAddr, host := LastValue(opts, HostAddr), LastValue(opts, Host);
      && (hostAddr.Some? ==> c.url == hostAddr.value)
      && (hostAddr.None? && host.Some? ==> c.url == host.value)
      && (hostAddr.None? && host.None? ==> c.url == DefaultUrl)
      && (LastValue(opts, Port).None? ==> c.port == DefaultPort)
      && (LastValue(opts, Port).Some? ==> c.port == DecimalValue(LastValue(opts, Port).value) % 65536)
      && (LastValue(opts, ConnectTimeout).None? ==>
            c.timeout == DefaultTimeout && c.slots[1] == Param(ConnectTimeoutKeyword, Some(DefaultConnectTimeout)))
      && (LastValue(opts, ConnectTimeout).Some? ==>
            c.timeout == env.parseTime(LastValue(opts, ConnectTimeout).value, false).value
            && c.slots[1] == Param(ConnectTimeoutKeyword, LastValue(opts, ConnectTimeout)))
      && c.verbosity == (match LastModifierValue(args[1..], VerbosityKey)
                         case None => Default
                         case Some(v) => VerbosityNamed(v).GetOr(Default))
      && c.slots[0] == (if c.family == Unix then Param(HostKeyword, HostPointer(hostAddr, host))
                        else Param(HostAddrKeyword, hostAddr))
      && c.slots[2] == Param(FallbackNameKeyword, Some(ApplicationName))
      && c.slots[|c.slots| - 1] == End
      && |c.slots| == |PassThrough(opts, c.family)| + 4
      && c.clientEncoding == LastValue(opts, ClientEncoding)
  {
    var c := BuildConnect(args, server, env).value.connect;
    var st := Settings(server, Default);
    ModifiersSucceed(args[1..], st, env.parseTime);
    VerbosityLastWins(args[1..], st, env.parseTime);
    LayoutShape(OptionsOf(args, server, env), c.family, HostPointer(LastValue(OptionsOf(args, server, env), HostAddr), LastValue(OptionsOf(args, server, env), Host)));
  }

  /** The count-then-fill bound: the allocation computed from the scan holds every slot
      the fill loop writes exactly when at most one `host` is set or the socket is a
      Unix one; libpq's distinct keywords guarantee the former. */
  lemma BuildFits(args: seq<string>, server: Option<Server>, env: Env)
    requires |args| >= 1
    requires BuildConnect(args, server, env).Ok?
    ensures var c := BuildConnect(args, server, env).value.connect;
      var opts := OptionsOf(args, server, env);
      var count := SlotCount(opts, c.family, HostPointer(LastValue(opts, HostAddr), LastValue(opts, Host)).Some?);
      && (|c.slots| <= count <==> c.family == Unix || Count(opts, Host) <= 1)
      && (DistinctKeywords(opts) ==> |c.slots| <= count)
  {
    var c := BuildConnect(args, server, env).value.connect;
    var opts := OptionsOf(args, server, env);
    var host := HostPointer(LastValue(opts, HostAddr), LastValue(opts, Host));
    LayoutFits(opts, c.family, host);
    if DistinctKeywords(opts) {
      DistinctOneHost(opts, Host);
    }
  }

  /** A `hostaddr` and a `port` option (`hostaddr=1.2.3.4 port=6543`, in any case):
      slot 0 is the numeric address, the port reaches `ngx_parse_url` and is still
      passed through to libpq. */
  lemma ExampleHostAddrPort(args: seq<string>, server: Option<Server>, env: Env, a: ConninfoOption, b: ConninfoOption)
    requires |args| >= 1
    requires ApplyModifiers(args[1..], Settings(server, Default), env.parseTime).Ok?
    requires env.parse(ConninfoString(args, server.Some?)) == Parsed([a, b])
    requires Is(a, HostAddr) && Is(b, Port) && IsNumber(b.val.value)
    requires var u := env.parseUrl(a.val.value, DecimalValue(b.val.value) % 65536); u.Resolved? && u.family == Inet
    ensures BuildConnect(args, server, env).Ok?
    ensures var c := BuildConnect(args, server, env).value.connect;
      && c.url == a.val.value && c.port == DecimalValue(b.val.value) % 65536 && c.timeout == DefaultTimeout
      && c.slots == [
        Param(HostAddrKeyword, a.val),
        Param(ConnectTimeoutKeyword, Some(DefaultConnectTimeout)),
        Param(FallbackNameKeyword, Some(ApplicationName)),
        Param(b.keyword, b.val),
        End]
  {
    AddressAndPort(a, b);
    assert PortOf(b.val) == Ok(DecimalValue(b.val.value) % 65536);
  }

  /** What the scan and the fill make of a `hostaddr` followed by a `port`. */
  lemma AddressAndPort(a: ConninfoOption, b: ConninfoOption)
    requires Is(a, HostAddr) && Is(b, Port)
    ensures LastValue([a, b], HostAddr) == a.val && LastValue([a, b], Port) == b.val
    ensures LastValue([a, b], ConnectTimeout) == None && LastValue([a, b], Host) == None
    ensures LastValue([a, b], ClientEncoding) == None
    ensures PassThrough([a, b], Inet) == [Param(b.keyword, b.val)]
  {
    var opts := [a, b];
    assert opts[..1] == [a];
    assert opts[..1][..0] == [];
  }

  /** `port=6543` is port 6543. */
  lemma ExamplePort()
    ensures PortOf(Some("6543")) == Ok(6543)
  {
    var s := "6543";
    assert IsNumber(s);
    assert s[..3] == "654" && s[..3][..2] == "65" && s[..3][..2][..1] == "6" && s[..3][..2][..1][..0] == "";
    assert DecimalValue("6") == 6;
    assert DecimalValue("65") == 65;
    assert DecimalValue("654") == 654;
  }

  /** A lone `host` naming a Unix socket (`host=/run/pg.sock`): the path is used as
      is, the port is the default, and `host` is not passed a second time. */
  lemma ExampleUnixHost(args: seq<string>, server: Option<Server>, env: Env, h: ConninfoOption)
    requires |args| >= 1
    requires ApplyModifiers(args[1..], Settings(server, Default), env.parseTime).Ok?
    requires env.parse(ConninfoString(args, server.Some?)) == Parsed([h])
    requires Is(h, Host)
    requires var u := env.parseUrl(h.val.value, DefaultPort); u.Resolved? && u.family == Unix
    ensures BuildConnect(args, server, env).Ok?
    ensures var c := BuildConnect(args, server, env).value.connect;
      && c.url == h.val.value && c.port == DefaultPort
      && c.slots == [
        Param(HostKeyword, h.val),
        Param(ConnectTimeoutKeyword, Some(DefaultConnectTimeout)),
        Param(FallbackNameKeyword, Some(ApplicationName)),
        End]
  {
    var opts := [h];
    assert opts[..0] == [];
    assert LastValue(opts, Host) == h.val;
    assert PassThrough(opts, Unix) == [];
  }

  /** Neither `hostaddr` nor `host`: the default socket, named in slot 0 as `host`. */
  lemma ExampleDefaultSocket(args: seq<string>, server: Option<Server>, env: Env)
    requires |args| >= 1
    requires ApplyModifiers(args[1..], Settings(server, Default), env.parseTime).Ok?
    requires env.parse(ConninfoString(args, server.Some?)) == Parsed([])
    requires var u := env.parseUrl(DefaultUrl, DefaultPort); u.Resolved? && u.family == Unix
    ensures BuildConnect(args, server, env).Ok?
    ensures var c := BuildConnect(args, server, env).value.connect;
      && c.url == DefaultUrl && c.port == DefaultPort
      && c.slots == [
        Param(HostKeyword, Some(DefaultUrl)),
        Param(ConnectTimeoutKeyword, Some(DefaultConnectTimeout)),
        Param(FallbackNameKeyword, Some(ApplicationName)),
        End]
  {
  }

  /** The builder as the C code runs it: the join through its two passes, the scan
      loop, the allocation sized from the scan, the fill loop. libpq's option arrays
      never repeat a keyword, and that is what keeps the fill inside the allocation. */
  method PassConnect(args: seq<string>, server: Option<Server>, env: Env) returns (r: Result<Built, Error>)
    requires |args| >= 1
    requires var p := env.parse(ConninfoString(args, server.Some?)); p.Parsed? ==> DistinctKeywords(p.options)
    ensures r == BuildConnect(args, server, env)
  {
    var modified := ApplyModifiers(args[1..], Settings(server, Default), env.parseTime);
    if modified.Err? {
      return Err(modified.error);
    }
    var st := modified.value;
    var buf := WriteConninfo(args, server.Some?);
    var conninfo := buf[..|buf| - 1];
    assert conninfo == ConninfoString(args, server.Some?);
    var parsed := env.parse(conninfo);
    if parsed.ParseFailed? {
      return Err(ParseError(parsed.message));
    }
    var opts := parsed.options;
    var scan := ScanOptions(opts);
    var timeout := TimeoutOf(scan.connectTimeout, env.parseTime);
    if timeout.Err? {
      return Err(timeout.error);
    }
    var url := UrlOf(scan.hostAddr, scan.host);
    var host := HostPointer(scan.hostAddr, scan.host);
    var port := PortOf(scan.port);
    if port.Err? {
      return Err(port.error);
    }
    var resolved := env.parseUrl(url, port.value);
    if resolved.Unresolved? {
      return Err(UrlInvalid(url, port.value, resolved.reason));
    }
    var server' := if st.server.Some? then Some(st.server.value.(addrs := resolved.addrs, name := url)) else None;
    var count := scan.counted + 1 + (if host.Some? && resolved.family != Unix then 1 else 0) + 1;
    assert count == SlotCount(opts, resolved.family, host.Some?);
    LayoutFits(opts, resolved.family, host);
    DistinctOneHost(opts, Host);
    var slots, clientEncoding := FillSlots(opts, resolved.family, host, count);
    r := Ok(Built(ConnectSpec(st.verbosity, timeout.value, url, port.value, resolved.family, resolved.addrs,
      slots, clientEncoding), server'));
  }

  /** `pq_server`: a fresh backend record with nginx's defaults (ngx_pq_module.c:
      483-487). */
  function PqServer(args: seq<string>, env: Env): (r: Result<Built, Error>)
    requires |args| >= 1
    ensures r.Ok? ==> r.value.server.Some?
  {
    BuildConnect(args, Some(DefaultServer()), env)
  }

  /** `pq_pass` with a literal address: no backend record. */
  function PqPass(args: seq<string>, env: Env): (r: Result<Built, Error>)
    requires |args| >= 1
    ensures r.Ok? ==> r.value.server.None?
  {
    BuildConnect(args, None, env)
  }

  /** A built backend record keeps a positive weight, and each field a modifier did
      not name keeps nginx's default. */
  lemma ServerDefaultsKept(args: seq<string>, env: Env)
    requires |args| >= 1
    requires PqServer(args, env).Ok?
    ensures var s := PqServer(args, env).value.server.value;
      var tokens := args[1..];
      && s.weight >= 1
      && (LastModifierValue(tokens, WeightKey).None? ==> s.weight == 1)
      && (LastModifierValue(tokens, MaxFailsKey).None? ==> s.maxFails == 1)
      && (LastModifierValue(tokens, FailTimeoutKey).None? ==> s.failTimeout == 10)
      && (LastModifierValue(tokens, MaxConnsKey).None? ==> s.maxConns == 0)
      && (s.backup <==> "backup" in tokens)
      && (s.down <==> "down" in tokens)
  {
    var tokens := args[1..];
    var st := Settings(Some(DefaultServer()), Default);
    ModifiersSucceed(tokens, st, env.parseTime);
    ServerFieldsLastWins(tokens, st, env.parseTime);
    LastValuesValid(tokens, true, env.parseTime);
  }
}

=== FILE: conninfo.dfy ===
/** The connection string `pq_server` / `pq_pass` hand to the libpq parser: the
    arguments that are not modifiers, joined in order (ngx_pq_module.c:255-273).
    `args[0]` is the directive name; the arguments proper start at index 1. */
module Conninfo {
  import opened Modifiers

  /** What argument `i` contributes: nothing for a modifier, else a space (unless it is
      argument 1) and its text. */
  function Part(args: seq<string>, i: nat, hasServer: bool): string
    requires 1 <= i < |args|
  {
    if IsModifier(args[i], hasServer) then [] else (if i > 1 then [' '] else []) + args[i]
  }

  /** The byte count pass one adds for argument `i` (ngx_pq_module.c:255-256). */
  function PartLength(args: seq<string>, i: nat, hasServer: bool): nat
    requires 1 <= i < |args|
  {
    if IsModifier(args[i], hasServer) then 0 else (if i > 1 then 1 else 0) + |args[i]|
  }

  /** The string pass two has written once arguments `1..i-1` are done. */
  function JoinUpTo(args: seq<string>, i: nat, hasServer: bool): string
    requires 1 <= i <= |args|
    decreases i
  {
    if i == 1 then [] else JoinUpTo(args, i - 1, hasServer) + Part(args, i - 1, hasServer)
  }

  /** The length pass one has counted once arguments `1..i-1` are done. */
  function LengthUpTo(args: seq<string>, i: nat, hasServer: bool): nat
    requires 1 <= i <= |args|
    decreases i
  {
    if i == 1 then 0 else LengthUpTo(args, i - 1, hasServer) + PartLength(args, i - 1, hasServer)
  }

  function ConninfoString(args: seq<string>, hasServer: bool): string
    requires |args| >= 1
  {
    JoinUpTo(args, |args|, hasServer)
  }

  /** Both passes agree: what pass two writes is as long as pass one counted. */
  lemma {:induction false} LengthMatches(args: seq<string>, i: nat, hasServer: bool)
    requires 1 <= i <= |args|
    ensures |JoinUpTo(args, i, hasServer)| == LengthUpTo(args, i, hasServer)
    decreases i
  {
    if i > 1 {
      LengthMatches(args, i - 1, hasServer);
    }
  }

  lemma {:induction false} LengthGrows(args: seq<string>, i: nat, j: nat, hasServer: bool)
    requires 1 <= i <= j <= |args|
    ensures LengthUpTo(args, i, hasServer) <= LengthUpTo(args, j, hasServer)
    decreases j - i
  {
    if i < j {
      LengthGrows(args, i, j - 1, hasServer);
    }
  }

  /** Pass one (ngx_pq_module.c:192-257, modifiers aside): the length to allocate. */
  method CountConninfo(args: seq<string>, hasServer: bool) returns (len: nat)
    requires |args| >= 1
    ensures len == LengthUpTo(args, |args|, hasServer)
    ensures len == |ConninfoString(args, hasServer)|
  {
    LengthMatches(args, |args|, hasServer);
    len := 0;
    var i := 1;
    while i < |args|
      invariant 1 <= i <= |args|
      invariant len == LengthUpTo(args, i, hasServer)
    {
      if !IsModifier(args[i], hasServer) {
        if i > 1 {
          len := len + 1;
        }
        len := len + |args[i]|;
      }
      i := i + 1;
    }
  }

  /** `ngx_copy`: the token's bytes at `p`, the bytes before `p` untouched. */
  method CopyAt(a: array<char>, p: nat, token: string)
    requires p + |token| <= a.Length
    modifies a
    ensures a[..p + |token|] == old(a[..p]) + token
  {
    ghost var before := a[..p];
    var j := 0;
    while j < |token|
      invariant 0 <= j <= |token|
      invariant a[..p + j] == before + token[..j]
    {
      a[p + j] := token[j];
      assert token[..j + 1] == token[..j] + [token[j]];
      j := j + 1;
    }
    assert token[..|token|] == token;
  }

  /** One more argument: the join grows by its part, the count by its length. */
  lemma JoinStep(args: seq<string>, i: nat, hasServer: bool)
    requires 1 <= i < |args|
    ensures JoinUpTo(args, i + 1, hasServer) == JoinUpTo(args, i, hasServer) + Part(args, i, hasServer)
    ensures LengthUpTo(args, i + 1, hasServer) == LengthUpTo(args, i, hasServer) + PartLength(args, i, hasServer)
  {
  }

  /** One iteration of pass two: a separating space unless this is argument 1, then
      the argument's bytes; a modifier writes nothing. */
  method CopyPart(a: array<char>, p: nat, args: seq<string>, i: nat, hasServer: bool) returns (q: nat)
    requires 1 <= i < |args|
    requires p + PartLength(args, i, hasServer) <= a.Length
    modifies a
    ensures q == p + PartLength(args, i, hasServer)
    ensures a[..q] == old(a[..p]) + Part(args, i, hasServer)
  {
    q := p;
    if !IsModifier(args[i], hasServer) {
      ghost var before := a[..p];
      var sep: string := if i > 1 then [' '] else [];
      CopyAt(a, q, sep);
      q := q + |sep|;
      ghost var separated := a[..q];
      CopyAt(a, q, args[i]);
      q := q + |args[i]|;
      assert a[..q] == separated + args[i] == (before + sep) + args[i];
    } else {
      assert a[..q] == old(a[..p]) + [];
    }
  }

  /** Both passes, as the C code runs them: count, allocate `len + 1` bytes, copy,
      terminate with NUL. Every write lands inside the buffer and the NUL lands on its
      last byte. */
  method WriteConninfo(args: seq<string>, hasServer: bool) returns (buf: seq<char>)
    requires |args| >= 1
    ensures |buf| == LengthUpTo(args, |args|, hasServer) + 1
    ensures buf == ConninfoString(args, hasServer) + ['\0']
  {
    var len := CountConninfo(args, hasServer);
    var a := new char[len + 1];
    var p := 0;
    var i := 1;
    while i < |args|
      invariant 1 <= i <= |args|
      invariant p == LengthUpTo(args, i, hasServer) <= len
      invariant a[..p] == JoinUpTo(args, i, hasServer)
    {
      LengthGrows(args, i + 1, |args|, hasServer);
      JoinStep(args, i, hasServer);
      p := CopyPart(a, p, args, i, hasServer);
      i := i + 1;
    }
    ghost var written := a[..p];
    a[p] := '\0';
    assert a[..] == written + ['\0'];
    LengthMatches(args, |args|, hasServer);
    buf := a[..];
  }

  /** The arguments among `1..i-1` that are kept. */
  function KeptUpTo(args: seq<string>, i: nat, hasServer: bool): seq<string>
    requires 1 <= i <= |args|
    decreases i
  {
    if i == 1 then []
    else KeptUpTo(args, i - 1, hasServer) + (if IsModifier(args[i - 1], hasServer) then [] else [args[i - 1]])
  }

  /** The usual space-separated join. */
  function SpaceJoin(xs: seq<string>): string
    decreases |xs|
  {
    if xs == [] then []
    else if |xs| == 1 then xs[0]
    else SpaceJoin(xs[..|xs| - 1]) + [' '] + xs[|xs| - 1]
  }

  lemma SpaceJoinSnoc(xs: seq<string>, x: string)
    ensures SpaceJoin(xs + [x]) == if xs == [] then x else SpaceJoin(xs) + [' '] + x
  {
    assert (xs + [x])[..|xs|] == xs;
  }

  /** The connection string is the kept arguments joined with single spaces, with one
      extra leading space when argument 1 was a modifier and something was kept. */
  lemma {:induction false} ConninfoIsSpaceJoin(args: seq<string>, i: nat, hasServer: bool)
    requires 1 <= i <= |args|
    ensures JoinUpTo(args, i, hasServer) == LeadingSpace(args, i, hasServer) + SpaceJoin(KeptUpTo(args, i, hasServer))
    decreases i
  {
    if i > 1 {
      ConninfoIsSpaceJoin(args, i - 1, hasServer);
      if IsModifier(args[i - 1], hasServer) {
        assert KeptUpTo(args, i, hasServer) == KeptUpTo(args, i - 1, hasServer);
      } else {
        JoinKeptStep(args, i, hasServer);
      }
    }
  }

  /** A kept argument extends the join by one space-separated word. */
  lemma JoinKeptStep(args: seq<string>, i: nat, hasServer: bool)
    requires 1 < i <= |args|
    requires !IsModifier(args[i - 1], hasServer)
    requires JoinUpTo(args, i - 1, hasServer)
      == LeadingSpace(args, i - 1, hasServer) + SpaceJoin(KeptUpTo(args, i - 1, hasServer))
    ensures JoinUpTo(args, i, hasServer) == LeadingSpace(args, i, hasServer) + SpaceJoin(KeptUpTo(args, i, hasServer))
  {
    if i == 2 {
      assert KeptUpTo(args, 2, hasServer) == [args[1]];
    } else if KeptUpTo(args, i - 1, hasServer) == [] {
      JoinFirstKept(args, i, hasServer);
    } else {
      JoinLaterKept(args, i, hasServer);
    }
  }

  lemma JoinFirstKept(args: seq<string>, i: nat, hasServer: bool)
    requires 2 < i <= |args|
    requires !IsModifier(args[i - 1], hasServer)
    requires KeptUpTo(args, i - 1, hasServer) == []
    requires JoinUpTo(args, i - 1, hasServer)
      == LeadingSpace(args, i - 1, hasServer) + SpaceJoin(KeptUpTo(args, i - 1, hasServer))
    ensures JoinUpTo(args, i, hasServer) == LeadingSpace(args, i, hasServer) + SpaceJoin(KeptUpTo(args, i, hasServer))
  {
    var k := i - 1;
    KeptFirst(args, k, hasServer);
    assert KeptUpTo(args, i, hasServer) == [args[k]];
    assert JoinUpTo(args, k, hasServer) == [];
  }

  /** Regrouping the concatenation, kept apart so that the step below stays small. */
  lemma Regroup(lead: string, sj: string, x: string)
    ensures (lead + sj) + ([' '] + x) == lead + (sj + [' '] + x)
  {
  }

  lemma JoinLaterKept(args: seq<string>, i: nat, hasServer: bool)
    requires 2 < i <= |args|
    requires !IsModifier(args[i - 1], hasServer)
    requires KeptUpTo(args, i - 1, hasServer) != []
    requires JoinUpTo(args, i - 1, hasServer)
      == LeadingSpace(args, i - 1, hasServer) + SpaceJoin(KeptUpTo(args, i - 1, hasServer))
    ensures JoinUpTo(args, i, hasServer) == LeadingSpace(args, i, hasServer) + SpaceJoin(KeptUpTo(args, i, hasServer))
  {
    var k := i - 1;
    var before := KeptUpTo(args, k, hasServer);
    var lead := LeadingSpace(args, k, hasServer);
    var x := args[k];
    assert KeptUpTo(args, i, hasServer) == before + [x];
    assert LeadingSpace(args, i, hasServer) == lead;
    assert Part(args, k, hasServer) == [' '] + x;
    var sj := SpaceJoin(before);
    assert JoinUpTo(args, i, hasServer) == (lead + sj) + ([' '] + x);
    SpaceJoinSnoc(before, x);
    Regroup(lead, sj, x);
  }

  /** One space when argument 1 is a modifier and some later argument was kept. */
  function LeadingSpace(args: seq<string>, i: nat, hasServer: bool): string
    requires 1 <= i <= |args|
  {
    if |args| > 1 && IsModifier(args[1], hasServer) && KeptUpTo(args, i, hasServer) != [] then [' '] else []
  }

  /** Argument 1, when kept, is the first kept argument. */
  lemma {:induction false} KeptFirst(args: seq<string>, i: nat, hasServer: bool)
    requires 2 <= i <= |args|
    ensures !IsModifier(args[1], hasServer) ==> KeptUpTo(args, i, hasServer) != [] && KeptUpTo(args, i, hasServer)[0] == args[1]
    decreases i
  {
    if i > 2 {
      KeptFirst(args, i - 1, hasServer);
    }
  }
}

=== FILE: errors.dfy ===
/** The configuration-time errors of the module. Each aborts loading the configuration;
    `Message` gives the text the C code returns or logs for it. */
module Errors {
  import opened Results
  import opened Chars

  datatype Error =
    // directive modifiers of `pq_server` / `pq_pass`
    | WeightNotNumber
    | WeightNotPositive
    | MaxConnsNotNumber
    | MaxFailsNotNumber
    | FailTimeoutNotTime
    | VerbosityInvalid
    // the connection-info parser failed, with its diagnostic (last byte removed) or without one
    | ConninfoMalformed(diagnostic: string)
    | ConninfoUnparsable
    | ConnectTimeoutInvalid
    | PortInvalid
    | UrlInvalid(url: string, port: nat, reason: Option<string>)
    // query templates and statement names
    | UnknownVariable
    | MissingQueryText
    // buffer settings of a location
    | TooFewBuffers
    | BusyBuffersTooSmall
    | BusyBuffersTooLarge

  /** The text of an error: the parser's diagnostic as it stands, else the fixed text the
      C code returns or logs. */
  function Message(e: Error): (m: string)
    ensures e.ConninfoMalformed? ==> m == e.diagnostic
    ensures e.UrlInvalid? ==> HasPrefix(UrlLogPrefix + e.url + [':'] + Decimal(e.port), m)
    ensures e.UrlInvalid? && e.reason.Some? ==> HasSuffix(" and " + e.reason.value, m)
  {
    match e
    case ConninfoMalformed(d) => d
    case UrlInvalid(url, port, reason) =>
      var head := UrlLogPrefix + url + [':'] + Decimal(port);
      var m := head + ") != NGX_OK" + (if reason.Some? then " and " + reason.value else "");
      assert m[..|head|] == head;
      m
    case _ => FixedMessage(e)
  }

  const UrlLogPrefix := "ngx_parse_url("

  predicate HasSuffix(x: string, s: string) {
    |x| <= |s| && s[|s| - |x|..] == x
  }

  /** The fixed texts. */
  function FixedMessage(e: Error): string
    requires !e.ConninfoMalformed? && !e.UrlInvalid?
  {
    match e
    case WeightNotNumber => "\"weight\" value must be number"
    case WeightNotPositive => "\"weight\" value must be positive"
    case MaxConnsNotNumber => "\"max_conns\" value must be number"
    case MaxFailsNotNumber => "\"max_fails\" value must be number"
    case FailTimeoutNotTime => "\"fail_timeout\" value must be time"
    case VerbosityInvalid => "\"error_verbosity\" value must be \"default\", \"sqlstate\", \"terse\" or \"verbose\""
    case ConninfoUnparsable => "!PQconninfoParse"
    case ConnectTimeoutInvalid => "ngx_parse_time == NGX_ERROR"
    case PortInvalid => "ngx_atoi == NGX_ERROR"
    case UnknownVariable => "ngx_http_get_variable_index == NGX_ERROR"
    case MissingQueryText => "query text is missing"
    case TooFewBuffers => "there must be at least 2 \"pq_buffers\""
    case BusyBuffersTooSmall => "\"pq_busy_buffers_size\" must be equal to or greater than the maximum of the value of \"pq_buffer_size\" and one of the \"pq_buffers\""
    case BusyBuffersTooLarge => "\"pq_busy_buffers_size\" must be less than the size of all \"pq_buffers\" minus one buffer"
  }
}

=== FILE: modifiers.dfy ===
/** The directive arguments `pq_server` and `pq_pass` consume themselves instead of
    passing them to the connection string (ngx_pq_module.c:191-254). */
module Modifiers {
  import opened Results
  import opened Chars
  import opened Errors

  /** libpq's `PGVerbosity`, chosen with `error_verbosity=`. */
  datatype Verbosity = Default | SqlState | Terse | Verbose

  /** The fields of nginx's `ngx_http_upstream_server_t` this module sets. */
  datatype Server = Server(
    weight: nat,
    maxConns: nat,
    maxFails: nat,
    failTimeout: nat,
    backup: bool,
    down: bool,
    addrs: seq<string>,
    name: string)

  /** The record `pq_server` starts from: zeroed, then the nginx defaults. */
  function DefaultServer(): (s: Server)
    ensures s.weight == 1 && s.maxFails == 1 && s.failTimeout == 10
    ensures s.maxConns == 0 && !s.backup && !s.down && s.addrs == [] && s.name == []
  {
    Server(1, 0, 1, 10, false, false, [], [])
  }

  /** `ngx_parse_time(str, is_sec)`: seconds when `is_sec`, else milliseconds, or
      `None` for NGX_ERROR. Its grammar is outside this model. */
  type ParseTime = (string, bool) -> Option<nat>

  const WeightKey := "weight="
  const MaxConnsKey := "max_conns="
  const MaxFailsKey := "max_fails="
  const FailTimeoutKey := "fail_timeout="
  const VerbosityKey := "error_verbosity="

  /** A token only a backend record (`pq_server`) consumes. */
  predicate IsServerModifier(t: string) {
    || StrictPrefix(WeightKey, t)
    || StrictPrefix(MaxConnsKey, t)
    || StrictPrefix(MaxFailsKey, t)
    || StrictPrefix(FailTimeoutKey, t)
    || t == "backup"
    || t == "down"
  }

  /** `error_verbosity=` with a value, consumed with or without a backend record. */
  predicate IsVerbosityModifier(t: string) {
    StrictPrefix(VerbosityKey, t)
  }

  predicate IsModifier(t: string, hasServer: bool) {
    (hasServer && IsServerModifier(t)) || IsVerbosityModifier(t)
  }

  /** The table of accepted `error_verbosity` values (ngx_pq_module.c:184-190). */
  function VerbosityNamed(s: string): Option<Verbosity> {
    if s == "default" then Some(Default)
    else if s == "sqlstate" then Some(SqlState)
    else if s == "terse" then Some(Terse)
    else if s == "verbose" then Some(Verbose)
    else None
  }

  /** The state the loop updates: the backend record, if any, and the verbosity. */
  datatype Settings = Settings(server: Option<Server>, verbosity: Verbosity)

  /** One iteration of the loop at ngx_pq_module.c:192-254; a token that is not a
      modifier leaves the settings alone. */
  function ApplyToken(t: string, st: Settings, parseTime: ParseTime): (r: Result<Settings, Error>)
    ensures r.Ok? <==> TokenValid(t, st.server.Some?, parseTime)
    ensures r.Ok? ==> (r.value.server.Some? <==> st.server.Some?)
    ensures !IsModifier(t, st.server.Some?) ==> r == Ok(st)
    ensures r.Err? ==> r.error in {WeightNotNumber, WeightNotPositive, MaxConnsNotNumber, MaxFailsNotNumber,
                                   FailTimeoutNotTime, VerbosityInvalid}
    ensures r == Err(WeightNotNumber) <==>
      st.server.Some? && StrictPrefix(WeightKey, t) && !IsNumber(t[|WeightKey|..])
    ensures r == Err(WeightNotPositive) <==>
      st.server.Some? && StrictPrefix(WeightKey, t) && IsNumber(t[|WeightKey|..]) && DecimalValue(t[|WeightKey|..]) == 0
    ensures r == Err(MaxConnsNotNumber) <==>
      st.server.Some? && StrictPrefix(MaxConnsKey, t) && !IsNumber(t[|MaxConnsKey|..])
    ensures r == Err(MaxFailsNotNumber) <==>
      st.server.Some? && StrictPrefix(MaxFailsKey, t) && !IsNumber(t[|MaxFailsKey|..])
    ensures r == Err(FailTimeoutNotTime) <==>
      st.server.Some? && StrictPrefix(FailTimeoutKey, t) && parseTime(t[|FailTimeoutKey|..], true).None?
    ensures r == Err(VerbosityInvalid) <==>
      IsVerbosityModifier(t) && VerbosityNamed(t[|VerbosityKey|..]).None?
  {
    PrefixesExclusive(t);
    if st.server.Some? && StrictPrefix(WeightKey, t) then
      var n := Atoi(t[|WeightKey|..]);
      if n.None? then Err(WeightNotNumber)
      else if n.value <= 0 then Err(WeightNotPositive)
      else Ok(st.(server := Some(st.server.value.(weight := n.value))))
    else if st.server.Some? && StrictPrefix(MaxConnsKey, t) then
      var n := Atoi(t[|MaxConnsKey|..]);
      if n.None? then Err(MaxConnsNotNumber)
      else Ok(st.(server := Some(st.server.value.(maxConns := n.value))))
    else if st.server.Some? && StrictPrefix(MaxFailsKey, t) then
      var n := Atoi(t[|MaxFailsKey|..]);
      if n.None? then Err(MaxFailsNotNumber)
      else Ok(st.(server := Some(st.server.value.(maxFails := n.value))))
    else if st.server.Some? && StrictPrefix(FailTimeoutKey, t) then
      var n := parseTime(t[|FailTimeoutKey|..], true);
      if n.None? then Err(FailTimeoutNotTime)
      else Ok(st.(server := Some(st.server.value.(failTimeout := n.value))))
    else if st.server.Some? && t == "backup" then
      Ok(st.(server := Some(st.server.value.(backup := true))))
    else if st.server.Some? && t == "down" then
      Ok(st.(server := Some(st.server.value.(down := true))))
    else if IsVerbosityModifier(t) then
      match VerbosityNamed(t[|VerbosityKey|..])
      case None => Err(VerbosityInvalid)
      case Some(v) => Ok(st.(verbosity := v))
    else
      Ok(st)
  }

  /** The modifier loop over the directive's arguments after its name; the first bad
      modifier aborts it. */
  function ApplyModifiers(tokens: seq<string>, st: Settings, parseTime: ParseTime): (r: Result<Settings, Error>)
    ensures r.Ok? ==> (r.value.server.Some? <==> st.server.Some?)
    ensures r.Ok? && st.server.Some? ==>
      r.value.server.value.addrs == st.server.value.addrs && r.value.server.value.name == st.server.value.name
    decreases |tokens|
  {
    if tokens == [] then Ok(st)
    else
      var st' :- ApplyToken(tokens[0], st, parseTime);
      ApplyModifiers(tokens[1..], st', parseTime)
  }

  /** Whether the loop accepts a token, stated apart from what it does with it. */
  predicate TokenValid(t: string, hasServer: bool, parseTime: ParseTime) {
    && (hasServer && StrictPrefix(WeightKey, t) ==> IsNumber(t[|WeightKey|..]) && DecimalValue(t[|WeightKey|..]) > 0)
    && (hasServer && StrictPrefix(MaxConnsKey, t) ==> IsNumber(t[|MaxConnsKey|..]))
    && (hasServer && StrictPrefix(MaxFailsKey, t) ==> IsNumber(t[|MaxFailsKey|..]))
    && (hasServer && StrictPrefix(FailTimeoutKey, t) ==> parseTime(t[|FailTimeoutKey|..], true).Some?)
    && (IsVerbosityModifier(t) ==> VerbosityNamed(t[|VerbosityKey|..]).Some?)
  }

  /** The value after `key` in the last token that starts with it and is longer. */
  function LastModifierValue(tokens: seq<string>, key: string): Option<string>
    decreases |tokens|
  {
    if tokens == [] then None
    else
      var later := LastModifierValue(tokens[1..], key);
      if later.Some? then later
      else if StrictPrefix(key, tokens[0]) then Some(tokens[0][|key|..])
      else None
  }

  /** The modifiers' prefixes exclude each other, so each token selects one branch. */
  lemma PrefixesExclusive(t: string)
    ensures StrictPrefix(WeightKey, t) ==>
      (!StrictPrefix(MaxConnsKey, t) && !StrictPrefix(MaxFailsKey, t)
       && !StrictPrefix(FailTimeoutKey, t) && !StrictPrefix(VerbosityKey, t))
    ensures StrictPrefix(MaxConnsKey, t) ==>
      (!StrictPrefix(MaxFailsKey, t) && !StrictPrefix(FailTimeoutKey, t) && !StrictPrefix(VerbosityKey, t))
    ensures StrictPrefix(MaxFailsKey, t) ==> !StrictPrefix(FailTimeoutKey, t) && !StrictPrefix(VerbosityKey, t)
    ensures StrictPrefix(FailTimeoutKey, t) ==> !StrictPrefix(VerbosityKey, t)
    ensures t == "backup" || t == "down" ==>
      (!StrictPrefix(VerbosityKey, t) && !StrictPrefix(WeightKey, t)
       && !StrictPrefix(MaxConnsKey, t) && !StrictPrefix(MaxFailsKey, t) && !StrictPrefix(FailTimeoutKey, t))
  {
    if StrictPrefix(WeightKey, t) {
      PrefixChar(WeightKey, t, 0);
    }
    if StrictPrefix(MaxConnsKey, t) {
      PrefixChar(MaxConnsKey, t, 0);
      PrefixChar(MaxConnsKey, t, 4);
    }
    if StrictPrefix(MaxFailsKey, t) {
      PrefixChar(MaxFailsKey, t, 0);
    }
    if StrictPrefix(FailTimeoutKey, t) {
      PrefixChar(FailTimeoutKey, t, 0);
    }
    if StrictPrefix(VerbosityKey, t) {
      PrefixChar(VerbosityKey, t, 0);
    }
  }

  lemma PrefixChar(p: string, t: string, i: nat)
    requires StrictPrefix(p, t) && i < |p|
    ensures t[i] == p[i]
  {
    assert t[..|p|][i] == t[i];
  }

  /** What one valid token does to each field. */
  lemma StepEffects(t: string, st: Settings, parseTime: ParseTime)
    requires TokenValid(t, st.server.Some?, parseTime)
    ensures ApplyToken(t, st, parseTime).Ok?
    ensures var r := ApplyToken(t, st, parseTime).value;
      && r.server.Some? == st.server.Some?
      && r.verbosity == (if IsVerbosityModifier(t) then VerbosityNamed(t[|VerbosityKey|..]).value else st.verbosity)
      && (st.server.Some? ==>
          var s, s' := st.server.value, r.server.value;
          && s'.weight == (if StrictPrefix(WeightKey, t) then Atoi(t[|WeightKey|..]).value else s.weight)
          && s'.maxConns == (if StrictPrefix(MaxConnsKey, t) then Atoi(t[|MaxConnsKey|..]).value else s.maxConns)
          && s'.maxFails == (if StrictPrefix(MaxFailsKey, t) then Atoi(t[|MaxFailsKey|..]).value else s.maxFails)
          && s'.failTimeout == (if StrictPrefix(FailTimeoutKey, t) then parseTime(t[|FailTimeoutKey|..], true).value
                               else s.failTimeout)
          && s'.backup == (s.backup || t == "backup")
          && s'.down == (s.down || t == "down")
          && s'.addrs == s.addrs && s'.name == s.name)
  {
    PrefixesExclusive(t);
  }

  /** The loop succeeds exactly when every token is valid. */
  lemma {:induction false} ModifiersSucceed(tokens: seq<string>, st: Settings, parseTime: ParseTime)
    ensures ApplyModifiers(tokens, st, parseTime).Ok?
      <==> forall i :: 0 <= i < |tokens| ==> TokenValid(tokens[i], st.server.Some?, parseTime)
    decreases |tokens|
  {
    if tokens != [] {
      var t := tokens[0];
      PrefixesExclusive(t);
      var r := ApplyToken(t, st, parseTime);
      assert r.Ok? <==> TokenValid(t, st.server.Some?, parseTime);
      if r.Ok? {
        assert r.value.server.Some? == st.server.Some?;
        ModifiersSucceed(tokens[1..], r.value, parseTime);
        assert forall i :: 1 <= i < |tokens| ==> tokens[i] == tokens[1..][i - 1];
      }
    }
  }

  /** The modifiers that name a value keep the last one given; `backup` and `down` stay
      set once given; the verbosity starts from `st` (DEFAULT in the C code). */
  predicate LastWins(tokens: seq<string>, st: Settings, r: Settings, parseTime: ParseTime)
    requires forall i :: 0 <= i < |tokens| ==> TokenValid(tokens[i], st.server.Some?, parseTime)
  {
    && r.verbosity == (match LastModifierValue(tokens, VerbosityKey)
                       case None => st.verbosity
                       case Some(v) => VerbosityNamed(v).GetOr(st.verbosity))
    && (st.server.Some? ==> r.server.Some? && ServerLastWins(tokens, st.server.value, r.server.value, parseTime))
  }

  predicate ServerLastWins(tokens: seq<string>, s: Server, r: Server, parseTime: ParseTime) {
    && r.weight == (match LastModifierValue(tokens, WeightKey) case None => s.weight case Some(v) => Atoi(v).GetOr(s.weight))
    && r.maxConns == (match LastModifierValue(tokens, MaxConnsKey) case None => s.maxConns case Some(v) => Atoi(v).GetOr(s.maxConns))
    && r.maxFails == (match LastModifierValue(tokens, MaxFailsKey) case None => s.maxFails case Some(v) => Atoi(v).GetOr(s.maxFails))
    && r.failTimeout == (match LastModifierValue(tokens, FailTimeoutKey)
                         case None => s.failTimeout
                         case Some(v) => parseTime(v, true).GetOr(s.failTimeout))
    && r.backup == (s.backup || "backup" in tokens)
    && r.down == (s.down || "down" in tokens)
  }

  /** The last value of a valid token list is itself valid. */
  lemma {:induction false} LastValuesValid(tokens: seq<string>, hasServer: bool, parseTime: ParseTime)
    requires forall i :: 0 <= i < |tokens| ==> TokenValid(tokens[i], hasServer, parseTime)
    ensures LastModifierValue(tokens, VerbosityKey).Some? ==> VerbosityNamed(LastModifierValue(tokens, VerbosityKey).value).Some?
    ensures hasServer && LastModifierValue(tokens, WeightKey).Some? ==>
      Atoi(LastModifierValue(tokens, WeightKey).value).Some? && Atoi(LastModifierValue(tokens, WeightKey).value).value > 0
    ensures hasServer && LastModifierValue(tokens, MaxConnsKey).Some? ==> Atoi(LastModifierValue(tokens, MaxConnsKey).value).Some?
    ensures hasServer && LastModifierValue(tokens, MaxFailsKey).Some? ==> Atoi(LastModifierValue(tokens, MaxFailsKey).value).Some?
    ensures hasServer && LastModifierValue(tokens, FailTimeoutKey).Some? ==>
      parseTime(LastModifierValue(tokens, FailTimeoutKey).value, true).Some?
    decreases |tokens|
  {
    if tokens != [] {
      assert TokenValid(tokens[0], hasServer, parseTime);
      assert forall i :: 0 <= i < |tokens| - 1 ==> tokens[1..][i] == tokens[i + 1];
      LastValuesValid(tokens[1..], hasServer, parseTime);
    }
  }

  lemma {:induction false} ModifiersLastWins(tokens: seq<string>, st: Settings, parseTime: ParseTime)
    requires forall i :: 0 <= i < |tokens| ==> TokenValid(tokens[i], st.server.Some?, parseTime)
    ensures ApplyModifiers(tokens, st, parseTime).Ok?
    ensures LastWins(tokens, st, ApplyModifiers(tokens, st, parseTime).value, parseTime)
  {
    VerbosityLastWins(tokens, st, parseTime);
    if st.server.Some? {
      ServerFieldsLastWins(tokens, st, parseTime);
    }
  }

  lemma {:induction false} VerbosityLastWins(tokens: seq<string>, st: Settings, parseTime: ParseTime)
    requires forall i :: 0 <= i < |tokens| ==> TokenValid(tokens[i], st.server.Some?, parseTime)
    ensures ApplyModifiers(tokens, st, parseTime).Ok?
    ensures ApplyModifiers(tokens, st, parseTime).value.verbosity
      == (match LastModifierValue(tokens, VerbosityKey)
          case None => st.verbosity
          case Some(v) => VerbosityNamed(v).GetOr(st.verbosity))
    decreases |tokens|
  {
    ModifiersSucceed(tokens, st, parseTime);
    if tokens != [] {
      var t := tokens[0];
      var rest := tokens[1..];
      assert TokenValid(t, st.server.Some?, parseTime);
      StepEffects(t, st, parseTime);
      var st' := ApplyToken(t, st, parseTime).value;
      assert forall i :: 0 <= i < |rest| ==> rest[i] == tokens[i + 1];
      VerbosityLastWins(rest, st', parseTime);
      LastValuesValid(rest, st.server.Some?, parseTime);
    }
  }

  lemma ServerFieldsLastWins(tokens: seq<string>, st: Settings, parseTime: ParseTime)
    requires st.server.Some?
    requires forall i :: 0 <= i < |tokens| ==> TokenValid(tokens[i], true, parseTime)
    ensures ApplyModifiers(tokens, st, parseTime).Ok?
    ensures ApplyModifiers(tokens, st, parseTime).value.server.Some?
    ensures ServerLastWins(tokens, st.server.value, ApplyModifiers(tokens, st, parseTime).value.server.value, parseTime)
  {
    ModifiersSucceed(tokens, st, parseTime);
    NumberLastWins(tokens, st, parseTime, WeightKey);
    NumberLastWins(tokens, st, parseTime, MaxConnsKey);
    NumberLastWins(tokens, st, parseTime, MaxFailsKey);
    FailTimeoutLastWins(tokens, st, parseTime);
    FlagsStaySet(tokens, st, parseTime);
  }

  /** The numeric field a `key=` modifier sets. */
  function NumberField(s: Server, key: string): nat {
    if key == WeightKey then s.weight else if key == MaxConnsKey then s.maxConns else s.maxFails
  }

  predicate IsNumberKey(key: string) {
    key == WeightKey || key == MaxConnsKey || key == MaxFailsKey
  }

  lemma {:induction false} NumberLastWins(tokens: seq<string>, st: Settings, parseTime: ParseTime, key: string)
    requires st.server.Some? && IsNumberKey(key)
    requires forall i :: 0 <= i < |tokens| ==> TokenValid(tokens[i], true, parseTime)
    ensures ApplyModifiers(tokens, st, parseTime).Ok?
    ensures ApplyModifiers(tokens, st, parseTime).value.server.Some?
    ensures NumberField(ApplyModifiers(tokens, st, parseTime).value.server.value, key)
      == (match LastModifierValue(tokens, key)
          case None => NumberField(st.server.value, key)
          case Some(v) => Atoi(v).GetOr(NumberField(st.server.value, key)))
    decreases |tokens|
  {
    ModifiersSucceed(tokens, st, parseTime);
    if tokens != [] {
      var t := tokens[0];
      var rest := tokens[1..];
      assert TokenValid(t, true, parseTime);
      StepEffects(t, st, parseTime);
      var st' := ApplyToken(t, st, parseTime).value;
      assert forall i :: 0 <= i < |rest| ==> rest[i] == tokens[i + 1];
      NumberLastWins(rest, st', parseTime, key);
      LastValuesValid(rest, true, parseTime);
      if StrictPrefix(key, t) {
        assert Atoi(t[|key|..]).Some?;
      }
    }
  }

  lemma {:induction false} FailTimeoutLastWins(tokens: seq<string>, st: Settings, parseTime: ParseTime)
    requires st.server.Some?
    requires forall i :: 0 <= i < |tokens| ==> TokenValid(tokens[i], true, parseTime)
    ensures ApplyModifiers(tokens, st, parseTime).Ok?
    ensures ApplyModifiers(tokens, st, parseTime).value.server.Some?
    ensures ApplyModifiers(tokens, st, parseTime).value.server.value.failTimeout
      == (match LastModifierValue(tokens, FailTimeoutKey)
          case None => st.server.value.failTimeout
          case Some(v) => parseTime(v, true).GetOr(st.server.value.failTimeout))
    decreases |tokens|
  {
    ModifiersSucceed(tokens, st, parseTime);
    if tokens != [] {
      var t := tokens[0];
      var rest := tokens[1..];
      assert TokenValid(t, true, parseTime);
      StepEffects(t, st, parseTime);
      var st' := ApplyToken(t, st, parseTime).value;
      assert forall i :: 0 <= i < |rest| ==> rest[i] == tokens[i + 1];
      FailTimeoutLastWins(rest, st', parseTime);
      LastValuesValid(rest, true, parseTime);
    }
  }

  lemma {:induction false} FlagsStaySet(tokens: seq<string>, st: Settings, parseTime: ParseTime)
    requires st.server.Some?
    requires forall i :: 0 <= i < |tokens| ==> TokenValid(tokens[i], true, parseTime)
    ensures ApplyModifiers(tokens, st, parseTime).Ok?
    ensures ApplyModifiers(tokens, st, parseTime).value.server.Some?
    ensures var r := ApplyModifiers(tokens, st, parseTime).value.server.value;
      && r.backup == (st.server.value.backup || "backup" in tokens)
      && r.down == (st.server.value.down || "down" in tokens)
    decreases |tokens|
  {
    ModifiersSucceed(tokens, st, parseTime);
    if tokens != [] {
      var t := tokens[0];
      var rest := tokens[1..];
      assert TokenValid(t, true, parseTime);
      StepEffects(t, st, parseTime);
      var st' := ApplyToken(t, st, parseTime).value;
      assert forall i :: 0 <= i < |rest| ==> rest[i] == tokens[i + 1];
      FlagsStaySet(rest, st', parseTime);
      assert tokens == [t] + rest;
      assert "backup" in tokens <==> t == "backup" || "backup" in rest;
      assert "down" in tokens <==> t == "down" || "down" in rest;
    }
  }

  /** `error_verbosity=terse` selects TERSE, with or without a backend record. */
  lemma ExampleVerbosityTerse(server: Option<Server>, parseTime: ParseTime)
    ensures ApplyModifiers(["error_verbosity=terse"], Settings(server, Default), parseTime)
      == Ok(Settings(server, Terse))
  {
    var t := "error_verbosity=terse";
    assert t[..|VerbosityKey|] == VerbosityKey;
    assert t[|VerbosityKey|..] == "terse";
    assert !StrictPrefix(WeightKey, t) && !StrictPrefix(MaxConnsKey, t) by {
      assert t[0] != WeightKey[0] && t[0] != MaxConnsKey[0];
    }
    assert !StrictPrefix(MaxFailsKey, t) && !StrictPrefix(FailTimeoutKey, t) by {
      assert t[0] != MaxFailsKey[0] && t[0] != FailTimeoutKey[0];
    }
    assert ApplyToken(t, Settings(server, Default), parseTime) == Ok(Settings(server, Terse));
    var rest: seq<string> := [t][1..];
    assert rest == [];
  }

  /** A value outside the table is rejected. */
  lemma ExampleVerbosityBogus(server: Option<Server>, parseTime: ParseTime)
    ensures ApplyModifiers(["error_verbosity=bogus"], Settings(server, Default), parseTime) == Err(VerbosityInvalid)
  {
    var t := "error_verbosity=bogus";
    assert t[..|VerbosityKey|] == VerbosityKey;
    assert t[|VerbosityKey|..] == "bogus";
    assert !StrictPrefix(WeightKey, t) && !StrictPrefix(MaxConnsKey, t) by {
      assert t[0] != WeightKey[0] && t[0] != MaxConnsKey[0];
    }
    assert !StrictPrefix(MaxFailsKey, t) && !StrictPrefix(FailTimeoutKey, t) by {
      assert t[0] != MaxFailsKey[0] && t[0] != FailTimeoutKey[0];
    }
    assert ApplyToken(t, Settings(server, Default), parseTime) == Err(VerbosityInvalid);
  }
}

=== FILE: query.dfy ===
/** What `pq_execute`, `pq_prepare` and `pq_query` compile their arguments into: an
    optional statement name and the command list of the query text. */
module Query {
  import opened Results
  import opened Chars
  import opened Errors
  import opened Template

  /** `ngx_http_get_variable_index`: the index of a request variable, or `None` for
      NGX_ERROR. It is a registry outside this model. */
  type VariableIndex = string -> Option<nat>

  /** The `index` field of a command. The C code leaves it 0 when it does not look the
      name up; the model tells that case apart from a looked-up index 0. */
  datatype Binding = Unbound | Indexed(index: nat)

  /** One `ngx_pq_command_t` of a query. */
  datatype Command = Literal(text: string) | Reference(name: string, binding: Binding)

  /** `query->name`: literal text, or the index of the variable that holds the name. */
  datatype StatementName = NamedLiteral(text: string) | NamedVariable(index: nat)

  datatype Directive = Execute | Prepare | Plain

  /** One `ngx_pq_query_t`; the output format the directive's trailing arguments set is
      not part of this model. */
  datatype QueryConf = QueryConf(directive: Directive, name: Option<StatementName>, commands: seq<Command>)

  /** The statement-name rule shared by `pq_execute` (ngx_pq_module.c:157-161) and
      `pq_prepare` (405-412): a leading `$` names a request variable. */
  function ParseStatementName(arg: string, index: VariableIndex): (r: Result<StatementName, Error>)
    ensures r.Err? <==> StartsWithDollar(arg) && index(arg[1..]).None?
    ensures r.Err? ==> r.error == UnknownVariable
    ensures r.Ok? && r.value.NamedLiteral? ==> r.value.text == arg && !StartsWithDollar(arg)
    ensures r.Ok? && r.value.NamedVariable? ==> StartsWithDollar(arg) && index(arg[1..]) == Some(r.value.index)
  {
    if |arg| > 0 && arg[0] == '$' then
      match index(arg[1..])
      case None => Err(UnknownVariable)
      case Some(i) => Ok(NamedVariable(i))
    else
      Ok(NamedLiteral(arg))
  }

  /** The command a scanned piece becomes. */
  predicate Resolves(x: Piece, c: Command, index: VariableIndex) {
    match x
    case Text(t) => c == Literal(t)
    case Name(n, lookup) =>
      if lookup then index(n).Some? && c == Reference(n, Indexed(index(n).value))
      else c == Reference(n, Unbound)
  }

  function ResolvePiece(x: Piece, index: VariableIndex): Result<Command, Error> {
    match x
    case Text(t) => Ok(Literal(t))
    case Name(n, lookup) =>
      if !lookup then Ok(Reference(n, Unbound))
      else if index(n).None? then Err(UnknownVariable)
      else Ok(Reference(n, Indexed(index(n).value)))
  }

  /** Looking up the names the scanner marked (ngx_pq_module.c:431): one command per
      piece, failing when a marked name has no variable. */
  function Resolve(p: seq<Piece>, index: VariableIndex): (r: Result<seq<Command>, Error>)
    ensures r.Ok? <==> forall k :: 0 <= k < |p| && p[k].Name? && p[k].lookup ==> index(p[k].name).Some?
    ensures r.Ok? ==> |r.value| == |p| && forall k :: 0 <= k < |p| ==> Resolves(p[k], r.value[k], index)
    ensures r.Err? ==> r.error == UnknownVariable
    decreases |p|
  {
    if p == [] then Ok([])
    else
      var c :- ResolvePiece(p[0], index);
      var rest :- Resolve(p[1..], index);
      assert forall k :: 1 <= k < |p| ==> p[k] == p[1..][k - 1];
      Ok([c] + rest)
  }

  /** Each piece determines its command, so a command list that matches the pieces
      one by one is what resolving them gives. */
  lemma ResolveDetermined(p: seq<Piece>, c: seq<Command>, index: VariableIndex)
    requires |c| == |p|
    requires forall k :: 0 <= k < |p| ==> Resolves(p[k], c[k], index)
    ensures Resolve(p, index) == Ok(c)
  {
    var r := Resolve(p, index);
    forall k | 0 <= k < |p| && p[k].Name? && p[k].lookup
      ensures index(p[k].name).Some?
    {
      assert Resolves(p[k], c[k], index);
    }
    assert r.Ok?;
    forall k | 0 <= k < |p|
      ensures r.value[k] == c[k]
    {
      assert Resolves(p[k], r.value[k], index) && Resolves(p[k], c[k], index);
    }
    assert r.value == c;
  }

  /** The text a command list stands for, `$` before each reference. */
  function CommandText(c: seq<Command>): string
    decreases |c|
  {
    if c == [] then []
    else
      (match c[0] case Literal(t) => t case Reference(n, _) => ['$'] + n)
      + CommandText(c[1..])
  }

  lemma {:induction false} ResolvedText(p: seq<Piece>, c: seq<Command>, index: VariableIndex)
    requires |c| == |p|
    requires forall k :: 0 <= k < |p| ==> Resolves(p[k], c[k], index)
    ensures CommandText(c) == Render(p)
    decreases |p|
  {
    if p != [] {
      assert Resolves(p[0], c[0], index);
      assert forall k :: 0 <= k < |p| - 1 ==> p[1..][k] == p[k + 1] && c[1..][k] == c[k + 1];
      ResolvedText(p[1..], c[1..], index);
    }
  }

  /** The argument the C code reads the query text from (ngx_pq_module.c:403-413):
      the first one, or the second after a `pq_prepare` statement name. */
  function QueryTextIndex(d: Directive): nat {
    if d == Prepare then 2 else 1
  }

  /** `NGX_CONF_1MORE`: the fewest arguments after its name the directive table lets
      `pq_prepare` have (ngx_pq_module.c:510-511). */
  const FewestArguments := 1

  /** As written, `pq_prepare` with only a statement name, which the directive table
      admits, reads its query text one past the last argument; the corrected `Compile`
      refuses that directive instead. */
  lemma PrepareNameOnlyOverruns(args: seq<string>, index: VariableIndex)
    requires |args| == 1 + FewestArguments
    ensures QueryTextIndex(Prepare) == |args|
    ensures Compile(Prepare, args, index) == Err(MissingQueryText)
  {
  }

  /** Compiling one directive; `args[0]` is the directive name and there is at least
      one argument. A `pq_prepare` without query text is refused here. */
  function Compile(d: Directive, args: seq<string>, index: VariableIndex): (r: Result<QueryConf, Error>)
    requires |args| >= 2
    ensures d == Prepare && |args| < 3 ==> r == Err(MissingQueryText)
    ensures r.Ok? ==> r.value.directive == d
    ensures r.Ok? ==> (r.value.name.Some? <==> d != Plain)
    ensures r.Ok? && d != Plain ==> ParseStatementName(args[1], index) == Ok(r.value.name.value)
    ensures r.Ok? && d == Execute ==> r.value.commands == []
    ensures r.Ok? && d != Execute ==>
      QueryTextIndex(d) < |args| && CommandText(r.value.commands) == args[QueryTextIndex(d)]
  {
    if d == Prepare && |args| < 3 then Err(MissingQueryText)
    else
      var name :- if d == Plain then Ok(None) else
        var n :- ParseStatementName(args[1], index);
        Ok(Some(n));
      if d == Execute then Ok(QueryConf(d, name, []))
      else
        var text := args[QueryTextIndex(d)];
        var p := Lex(text);
        var commands :- Resolve(p, index);
        ResolvedText(p, commands, index);
        Ok(QueryConf(d, name, commands))
  }

  /** A query text compiles exactly when every name the scanner marks for lookup is a
      known variable, and then into one command per scanned piece. */
  lemma CompileTemplate(d: Directive, args: seq<string>, index: VariableIndex)
    requires |args| >= 2 && d != Execute && QueryTextIndex(d) < |args|
    requires ParseStatementName(args[1], index).Ok? || d == Plain
    ensures var p := Lex(args[QueryTextIndex(d)]);
      && (Compile(d, args, index).Ok? <==> forall k :: 0 <= k < |p| && p[k].Name? && p[k].lookup ==> index(p[k].name).Some?)
      && (Compile(d, args, index).Ok? ==> Resolve(p, index) == Ok(Compile(d, args, index).value.commands))
  {
  }

  /** `pq_query` compiles to the resolved scan of its one text argument. */
  lemma CompilePlain(args: seq<string>, index: VariableIndex)
    requires |args| >= 2
    ensures Compile(Plain, args, index)
      == match Resolve(Lex(args[1]), index)
         case Ok(c) => Ok(QueryConf(Plain, None, c))
         case Err(e) => Err(e)
  {
  }

  /** A text that is one reference, such as `$id`, compiles to an empty literal and
      then the name, looked up. */
  lemma LeadingName(n: string, index: VariableIndex)
    requires IsName(n) && index(n).Some?
    ensures Compile(Plain, ["pq_query", ['$'] + n], index)
      == Ok(QueryConf(Plain, None, [Literal([]), Reference(n, Indexed(index(n).value))]))
  {
    var args := ["pq_query", ['$'] + n];
    var p := [Text([]), Name(n, true)];
    RenderTwo(p[0], p[1]);
    assert Render(p) == ['$'] + n;
    assert p[2..] == [];
    assert WellFormed(p);
    LexUnique(p);
    var c := [Literal([]), Reference(n, Indexed(index(n).value))];
    assert Resolves(p[0], c[0], index) && Resolves(p[1], c[1], index);
    ResolveDetermined(p, c, index);
    CompilePlain(args, index);
  }

  /** `$a$$1` for any name byte `a` and digit `1`: an empty run, `a`, `$`, `$`, `1`. */
  lemma LexNameBeforeDollar(a: char, d: char)
    requires IsNameStart(a) && IsDigit(d)
    ensures Lex(['$', a, '$', '$', d]) == [Text([]), Name([a], false), Text(['$']), Text(['$']), Text([d])]
  {
    var p := [Text([]), Name([a], false), Text(['$']), Text(['$']), Text([d])];
    var p4 := [Text([d])];
    var p3 := [Text(['$'])] + p4;
    var p2 := [Text(['$'])] + p3;
    assert p[2..] == p2;
    RenderOne(Text([d]));
    RenderAppend([Text(['$'])], p4);
    RenderOne(Text(['$']));
    assert Render(p3) == ['$', d];
    RenderAppend([Text(['$'])], p3);
    assert Render(p2) == ['$', '$', d];
    NameStepText(p);
    assert Render(p) == ['$', a, '$', '$', d];
    assert p3[1..] == p4;
    assert p2[1..] == p3;
    assert WellFormed(p4);
    assert WellFormed(p3);
    assert WellFormed(p2);
    assert WellFormed(p);
    LexUnique(p);
  }

  /** A name directly followed by `$` is not looked up, whatever the registry holds,
      and a `$` before a digit stays literal text. */
  lemma NameBeforeDollar(a: char, d: char, index: VariableIndex)
    requires IsNameStart(a) && IsDigit(d)
    ensures Compile(Plain, ["pq_query", ['$', a, '$', '$', d]], index)
      == Ok(QueryConf(Plain, None, [Literal([]), Reference([a], Unbound), Literal(['$']), Literal(['$']), Literal([d])]))
  {
    var args := ["pq_query", ['$', a, '$', '$', d]];
    LexNameBeforeDollar(a, d);
    var p := [Text([]), Name([a], false), Text(['$']), Text(['$']), Text([d])];
    var c := [Literal([]), Reference([a], Unbound), Literal(['$']), Literal(['$']), Literal([d])];
    assert Resolves(p[0], c[0], index) && Resolves(p[1], c[1], index);
    assert Resolves(p[2], c[2], index) && Resolves(p[3], c[3], index) && Resolves(p[4], c[4], index);
    ResolveDetermined(p, c, index);
    CompilePlain(args, index);
  }
}

=== FILE: results.dfy ===
/** Optional values and results with an error, both usable with `:-`. */
module Results {

  /** A value that may be absent: a NULL pointer in the C code. */
  datatype Option<+T> = None | Some(value: T) {

    predicate IsFailure() {
      None?
    }

    function PropagateFailure<U>(): Option<U>
      requires None?
    {
      None
    }

    function Extract(): T
      requires Some?
    {
      value
    }

    function GetOr(default: T): T {
      if Some? then value else default
    }
  }

  /** The outcome of a configuration step: a value, or the error that aborts loading. */
  datatype Result<+T, +E> = Ok(value: T) | Err(error: E) {

    predicate IsFailure() {
      Err?
    }

    function PropagateFailure<U>(): Result<U, E>
      requires Err?
    {
      Err(error)
    }

    function Extract(): T
      requires Ok?
    {
      value
    }
  }
}

=== FILE: slots.dfy ===
/** The keyword/value arrays handed to `PQconnectStartParams`: counted while the parsed
    connection options are scanned (ngx_pq_module.c:286-302, 336-337) and filled once
    the address is known (ngx_pq_module.c:338-370). */
module Slots {
  import opened Results
  import opened Chars

  /** One entry of the array `PQconninfoParse` returns; `val` is `None` for an option
      the string did not set. */
  datatype ConninfoOption = ConninfoOption(keyword: string, val: Option<string>)

  /** The address family `ngx_parse_url` found: a Unix-domain socket or anything else. */
  datatype Family = Unix | Inet

  /** One keyword/value pair of the output arrays, or the NULL pair that ends them. */
  datatype Slot = Param(keyword: string, value: Option<string>) | End

  /** The option keywords the module treats specially; every other keyword is passed
      through untouched. */
  datatype Kind = ConnectTimeout | FallbackName | HostAddr | Host | Port | ClientEncoding | Plain

  const ConnectTimeoutKeyword := "connect_timeout"
  const FallbackNameKeyword := "fallback_application_name"
  const HostAddrKeyword := "hostaddr"
  const HostKeyword := "host"
  const PortKeyword := "port"
  const ClientEncodingKeyword := "client_encoding"

  /** The timeout the module writes when the string sets none, in seconds. */
  const DefaultConnectTimeout := "60"
  const ApplicationName := "nginx"

  /** The keywords the scan and fill loops compare against, in the order they test. */
  const KindTable: seq<(string, Kind)> := [
    (ConnectTimeoutKeyword, ConnectTimeout),
    (FallbackNameKeyword, FallbackName),
    (HostAddrKeyword, HostAddr),
    (HostKeyword, Host),
    (PortKeyword, Port),
    (ClientEncodingKeyword, ClientEncoding)]

  function Classify(k: string, table: seq<(string, Kind)>): Kind
    decreases |table|
  {
    if table == [] then Plain
    else if SameKeyword(k, table[0].0) then table[0].1
    else Classify(k, table[1..])
  }

  /** The table read as the chain of case-insensitive tests the C code writes out. */
  lemma ClassifyChain(k: string)
    ensures Classify(k, KindTable) ==
      if SameKeyword(k, ConnectTimeoutKeyword) then ConnectTimeout
      else if SameKeyword(k, FallbackNameKeyword) then FallbackName
      else if SameKeyword(k, HostAddrKeyword) then HostAddr
      else if SameKeyword(k, HostKeyword) then Host
      else if SameKeyword(k, PortKeyword) then Port
      else if SameKeyword(k, ClientEncodingKeyword) then ClientEncoding
      else Plain
  {
    var t := KindTable;
    assert t[0] == (ConnectTimeoutKeyword, ConnectTimeout);
    var t1 := t[1..];
    assert t1[0] == (FallbackNameKeyword, FallbackName);
    var t2 := t1[1..];
    assert t2[0] == (HostAddrKeyword, HostAddr);
    var t3 := t2[1..];
    assert t3[0] == (HostKeyword, Host);
    var t4 := t3[1..];
    assert t4[0] == (PortKeyword, Port);
    var t5 := t4[1..];
    assert t5[0] == (ClientEncodingKeyword, ClientEncoding);
    assert t5[1..] == [];
    assert Classify(k, t5) == if SameKeyword(k, ClientEncodingKeyword) then ClientEncoding else Plain;
    assert Classify(k, t4) == if SameKeyword(k, PortKeyword) then Port else Classify(k, t5);
    assert Classify(k, t3) == if SameKeyword(k, HostKeyword) then Host else Classify(k, t4);
    assert Classify(k, t2) == if SameKeyword(k, HostAddrKeyword) then HostAddr else Classify(k, t3);
    assert Classify(k, t1) == if SameKeyword(k, FallbackNameKeyword) then FallbackName else Classify(k, t2);
  }

  /** `ngx_strcasecmp(keyword, constant) == 0` against each constant in turn. */
  function KindOf(keyword: string): Kind {
    Classify(keyword, KindTable)
  }

  /** The kinds the fill loop never copies: the module supplies its own slots for them. */
  predicate Consumed(k: Kind) {
    k == ConnectTimeout || k == FallbackName || k == HostAddr
  }

  predicate Valued(o: ConninfoOption) { o.val.Some? }

  predicate Is(o: ConninfoOption, kind: Kind) { Valued(o) && KindOf(o.keyword) == kind }

  /** The value of the last set option of `kind`: the scan loop overwrites its pointer
      each time it meets one. */
  function LastValue(opts: seq<ConninfoOption>, kind: Kind): (r: Option<string>)
    ensures r.Some? ==> r.value in OptionValues(opts)
    decreases |opts|
  {
    if opts == [] then None
    else
      var last := opts[|opts| - 1];
      if Is(last, kind) then last.val
      else LastValue(opts[..|opts| - 1], kind)
  }

  /** The values the options carry. */
  function OptionValues(opts: seq<ConninfoOption>): set<string> {
    set o | o in opts && o.val.Some? :: o.val.value
  }

  /** `LastValue` finds a set option of `kind` exactly when there is one. */
  lemma {:induction false} LastValueFound(opts: seq<ConninfoOption>, kind: Kind)
    ensures LastValue(opts, kind).Some? <==> exists i :: 0 <= i < |opts| && Is(opts[i], kind)
    decreases |opts|
  {
    if opts != [] {
      var n := |opts| - 1;
      var init := opts[..n];
      LastValueFound(init, kind);
      if !Is(opts[n], kind) {
        if exists i :: 0 <= i < |opts| && Is(opts[i], kind) {
          var i :| 0 <= i < |opts| && Is(opts[i], kind);
          assert i < n && init[i] == opts[i];
        }
        if exists i :: 0 <= i < |init| && Is(init[i], kind) {
          var i :| 0 <= i < |init| && Is(init[i], kind);
          assert opts[i] == init[i];
        }
      }
    }
  }

  /** The option `LastValue` finds has no set option of `kind` after it. */
  lemma {:induction false} LastValueIsLast(opts: seq<ConninfoOption>, kind: Kind)
    requires LastValue(opts, kind).Some?
    ensures exists i :: (0 <= i < |opts| && Is(opts[i], kind)
      && opts[i].val == LastValue(opts, kind) && (forall j :: i < j < |opts| ==> !Is(opts[j], kind)))
    decreases |opts|
  {
    var n := |opts| - 1;
    if Is(opts[n], kind) {
      assert opts[n].val == LastValue(opts, kind);
    } else {
      var init := opts[..n];
      assert LastValue(opts, kind) == LastValue(init, kind);
      LastValueIsLast(init, kind);
      var i :| 0 <= i < |init| && Is(init[i], kind)
        && init[i].val == LastValue(init, kind) && (forall j :: i < j < |init| ==> !Is(init[j], kind));
      assert opts[i] == init[i];
      forall j | i < j < |opts|
        ensures !Is(opts[j], kind)
      {
        if j < n {
          assert opts[j] == init[j];
        }
      }
    }
  }

  /** How many set options of `kind` there are. */
  function Count(opts: seq<ConninfoOption>, kind: Kind): (n: nat)
    ensures n <= |opts|
    decreases |opts|
  {
    if opts == [] then 0
    else Count(opts[..|opts| - 1], kind) + (if Is(opts[|opts| - 1], kind) then 1 else 0)
  }

  /** The scan loop counts a slot for every set option it does not consume; `port` is
      recorded and still counted. */
  predicate IsOther(o: ConninfoOption) {
    Valued(o) && !Consumed(KindOf(o.keyword)) && KindOf(o.keyword) != Host
  }

  function CountOthers(opts: seq<ConninfoOption>): (n: nat)
    ensures n <= |opts|
    decreases |opts|
  {
    if opts == [] then 0
    else CountOthers(opts[..|opts| - 1]) + (if IsOther(opts[|opts| - 1]) then 1 else 0)
  }

  /** The fill loop copies a set option unless it is `connect_timeout`,
      `fallback_application_name`, `hostaddr`, or `host` on a Unix socket. */
  predicate Passes(o: ConninfoOption, family: Family) {
    && Valued(o)
    && !Consumed(KindOf(o.keyword))
    && !(KindOf(o.keyword) == Host && family == Unix)
  }

  /** The copied options in their order, keyword spelling kept. */
  function PassThrough(opts: seq<ConninfoOption>, family: Family): (r: seq<Slot>)
    ensures |r| <= |opts|
    ensures forall j :: 0 <= j < |r| ==> r[j].Param? && r[j].value.Some?
    ensures forall j :: 0 <= j < |r| ==> !Consumed(KindOf(r[j].keyword))
    decreases |opts|
  {
    if opts == [] then []
    else
      var last := opts[|opts| - 1];
      PassThrough(opts[..|opts| - 1], family)
        + (if Passes(last, family) then [Param(last.keyword, last.val)] else [])
  }

  /** A slot is copied exactly when some option that passes produced it. */
  lemma {:induction false} PassThroughMembers(opts: seq<ConninfoOption>, family: Family, s: Slot)
    ensures s in PassThrough(opts, family) <==>
      exists o :: o in opts && Passes(o, family) && s == Param(o.keyword, o.val)
    decreases |opts|
  {
    if opts != [] {
      var init := opts[..|opts| - 1];
      var last := opts[|opts| - 1];
      PassThroughMembers(init, family, s);
      assert opts == init + [last];
      if s in PassThrough(opts, family) && s !in PassThrough(init, family) {
        assert Passes(last, family) && s == Param(last.keyword, last.val);
      }
    }
  }

  /** Copied slots are the other options plus, off a Unix socket, the `host` entries. */
  lemma {:induction false} PassThroughCount(opts: seq<ConninfoOption>, family: Family)
    ensures |PassThrough(opts, family)| == CountOthers(opts) + (if family == Unix then 0 else Count(opts, Host))
    decreases |opts|
  {
    if opts != [] {
      PassThroughCount(opts[..|opts| - 1], family);
    }
  }

  lemma {:induction false} PassThroughGrows(opts: seq<ConninfoOption>, i: nat, family: Family)
    requires i <= |opts|
    ensures |PassThrough(opts[..i], family)| <= |PassThrough(opts, family)|
    decreases |opts| - i
  {
    if i < |opts| {
      PassThroughGrows(opts, i + 1, family);
      assert opts[..i + 1][..i] == opts[..i];
    } else {
      assert opts[..i] == opts;
    }
  }

  lemma {:induction false} CountPositive(opts: seq<ConninfoOption>, kind: Kind)
    ensures Count(opts, kind) > 0 <==> LastValue(opts, kind).Some?
    decreases |opts|
  {
    if opts != [] {
      CountPositive(opts[..|opts| - 1], kind);
      if !Is(opts[|opts| - 1], kind) && Count(opts[..|opts| - 1], kind) == 0 {
        assert !LastValue(opts[..|opts| - 1], kind).Some?;
      }
    }
  }

  /** What the scan loop leaves behind (ngx_pq_module.c:286-302). */
  datatype Scan = Scan(
    connectTimeout: Option<string>,
    hostAddr: Option<string>,
    host: Option<string>,
    port: Option<string>,
    counted: nat)

  /** The scan loop: the last value of each consumed option and the slot count so far,
      which starts at 2 for `connect_timeout` and `fallback_application_name` on top of
      slot 0. */
  method ScanOptions(opts: seq<ConninfoOption>) returns (scan: Scan)
    ensures scan.connectTimeout == LastValue(opts, ConnectTimeout)
    ensures scan.hostAddr == LastValue(opts, HostAddr)
    ensures scan.host == LastValue(opts, Host)
    ensures scan.port == LastValue(opts, Port)
    ensures scan.counted == 2 + CountOthers(opts)
  {
    var connectTimeout: Option<string> := None;
    var hostAddr: Option<string> := None;
    var host: Option<string> := None;
    var port: Option<string> := None;
    var arg := 0;
    arg := arg + 1;
    arg := arg + 1;
    var i := 0;
    while i < |opts|
      invariant 0 <= i <= |opts|
      invariant connectTimeout == LastValue(opts[..i], ConnectTimeout)
      invariant hostAddr == LastValue(opts[..i], HostAddr)
      invariant host == LastValue(opts[..i], Host)
      invariant port == LastValue(opts[..i], Port)
      invariant arg == 2 + CountOthers(opts[..i])
    {
      assert opts[..i + 1][..i] == opts[..i];
      var opt := opts[i];
      if opt.val.Some? {
        var kind := KindOf(opt.keyword);
        if kind == ConnectTimeout {
          connectTimeout := opt.val;
        } else if kind == FallbackName {
        } else if kind == HostAddr {
          hostAddr := opt.val;
        } else if kind == Host {
          host := opt.val;
        } else {
          if kind == Port {
            port := opt.val;
          }
          arg := arg + 1;
        }
      }
      i := i + 1;
    }
    assert opts[..i] == opts;
    scan := Scan(connectTimeout, hostAddr, host, port, arg);
  }

  /** The number of slots allocated: the scan's count, one for the end marker, one for
      a `host` that must be passed alongside `hostaddr`, and one more (ngx_pq_module.c:
      302, 336-337). Against the layout it must hold, the count reserves one slot for
      the `host` pointer on a network socket where the layout takes one per copied
      `host` entry. */
  function SlotCount(opts: seq<ConninfoOption>, family: Family, hostSet: bool): (n: nat)
    ensures forall h ::
              n + (if family == Unix then 0 else Count(opts, Host))
              == |Layout(opts, family, h)| + (if hostSet && family != Unix then 1 else 0)
  {
    PassThroughCount(opts, family);
    2 + CountOthers(opts) + 1 + (if hostSet && family != Unix then 1 else 0) + 1
  }

  /** The arrays as the fill loop leaves them. Slot 0 names the address: `host` with
      the socket path on a Unix socket, else `hostaddr`; slot 1 is the timeout in
      seconds; slot 2 forces the application name; the copied options follow; `End`
      terminates. `host` is the module's `host` pointer, possibly the default path. */
  function Layout(opts: seq<ConninfoOption>, family: Family, host: Option<string>): (l: seq<Slot>)
    ensures |l| == |PassThrough(opts, family)| + 4
    ensures l[|l| - 1] == End
    ensures forall j :: 0 <= j < |l| - 1 ==> l[j].Param?
  {
    var pt := PassThrough(opts, family);
    var l := Fixed(opts, family, host) + pt + [End];
    assert forall j :: 3 <= j < |l| - 1 ==> l[j] == pt[j - 3];
    l
  }

  /** Slots 0 to 2. */
  function Fixed(opts: seq<ConninfoOption>, family: Family, host: Option<string>): seq<Slot> {
    [AddressSlot(opts, family, host), TimeoutSlot(opts), NameSlot()]
  }

  function AddressSlot(opts: seq<ConninfoOption>, family: Family, host: Option<string>): Slot {
    if family == Unix then Param(HostKeyword, host) else Param(HostAddrKeyword, LastValue(opts, HostAddr))
  }

  function TimeoutSlot(opts: seq<ConninfoOption>): Slot {
    Param(ConnectTimeoutKeyword, Some(LastValue(opts, ConnectTimeout).GetOr(DefaultConnectTimeout)))
  }

  function NameSlot(): Slot {
    Param(FallbackNameKeyword, Some(ApplicationName))
  }

  /** The module's own keywords classify as the kinds they name. */
  lemma FixedKinds()
    ensures KindOf(HostKeyword) == Host
    ensures KindOf(HostAddrKeyword) == HostAddr
    ensures KindOf(ConnectTimeoutKeyword) == ConnectTimeout
  {
    HostKind();
    HostAddrKind();
    ConnectTimeoutKind();
  }

  lemma HostKind()
    ensures KindOf(HostKeyword) == Host
  {
    ClassifyChain(HostKeyword);
    LengthsDiffer(HostKeyword, ConnectTimeoutKeyword);
    LengthsDiffer(HostKeyword, FallbackNameKeyword);
    LengthsDiffer(HostKeyword, HostAddrKeyword);
  }

  lemma HostAddrKind()
    ensures KindOf(HostAddrKeyword) == HostAddr
  {
    ClassifyChain(HostAddrKeyword);
    LengthsDiffer(HostAddrKeyword, ConnectTimeoutKeyword);
    LengthsDiffer(HostAddrKeyword, FallbackNameKeyword);
  }

  lemma ConnectTimeoutKind()
    ensures KindOf(ConnectTimeoutKeyword) == ConnectTimeout
  {
    ClassifyChain(ConnectTimeoutKeyword);
  }

  /** The shape promised for every option list: three fixed slots, the copied options
      in order, the terminator. */
  lemma LayoutShape(opts: seq<ConninfoOption>, family: Family, host: Option<string>)
    ensures var l := Layout(opts, family, host);
      && |l| == |PassThrough(opts, family)| + 4
      && l[..3] == Fixed(opts, family, host)
      && l[2] == Param(FallbackNameKeyword, Some(ApplicationName))
      && l[|l| - 1] == End
      && (forall j :: 3 <= j < |l| - 1 ==> l[j] == PassThrough(opts, family)[j - 3])
  {
    var l := Layout(opts, family, host);
    var pt := PassThrough(opts, family);
    assert l == Fixed(opts, family, host) + pt + [End];
    assert forall j :: 3 <= j < |l| - 1 ==> l[j] == pt[j - 3];
  }

  lemma NotFallback(k: string)
    requires k == HostKeyword || k == HostAddrKeyword || k == ConnectTimeoutKeyword
    ensures KindOf(k) != FallbackName
  {
    FixedKinds();
  }

  /** Only slot 2 names `fallback_application_name`, so a user-supplied one never
      reaches libpq. */
  lemma FallbackOnlyAtTwo(opts: seq<ConninfoOption>, family: Family, host: Option<string>)
    ensures var l := Layout(opts, family, host);
      forall j :: 0 <= j < |l| && j != 2 && l[j].Param? ==> KindOf(l[j].keyword) != FallbackName
  {
    var l := Layout(opts, family, host);
    forall j | 0 <= j < |l| && j != 2 && l[j].Param?
      ensures KindOf(l[j].keyword) != FallbackName
    {
      LayoutShape(opts, family, host);
      if j < 2 {
        var k := l[j].keyword;
        assert k == HostKeyword || k == HostAddrKeyword || k == ConnectTimeoutKeyword;
        NotFallback(k);
      } else {
        var pt := PassThrough(opts, family);
        assert l[j] == pt[j - 3];
      }
    }
  }

  /** The allocation holds the layout exactly when the options carry at most one set
      `host`, or the socket is a Unix one. `hostSet` is whether the `host` pointer is
      non-NULL: a `host` option was set, or there was no `hostaddr` and the default
      path was substituted (ngx_pq_module.c:316-318). */
  lemma LayoutFits(opts: seq<ConninfoOption>, family: Family, host: Option<string>)
    requires host.Some? <==> LastValue(opts, Host).Some? || LastValue(opts, HostAddr).None?
    ensures |Layout(opts, family, host)| <= SlotCount(opts, family, host.Some?)
      <==> family == Unix || Count(opts, Host) <= 1
  {
    PassThroughCount(opts, family);
    CountPositive(opts, Host);
  }

  /** When there is no slack, a second `host` entry would overrun the allocation. */
  lemma TwoHostsOverrun()
    ensures var opts := [ConninfoOption(HostKeyword, Some("a")), ConninfoOption(HostKeyword, Some("b"))];
      |Layout(opts, Inet, Some("b"))| > SlotCount(opts, Inet, true)
  {
    var opts := [ConninfoOption(HostKeyword, Some("a")), ConninfoOption(HostKeyword, Some("b"))];
    HostKind();
    assert Is(opts[0], Host) && Is(opts[1], Host);
    assert opts[..1] == [opts[0]];
    assert opts[..1][..0] == [];
    assert Count(opts, Host) == 2;
    LayoutFits(opts, Inet, Some("b"));
  }

  /** libpq returns one entry per keyword it knows, so no keyword repeats. */
  predicate DistinctKeywords(opts: seq<ConninfoOption>) {
    forall i, j :: 0 <= i < j < |opts| ==> Lower(opts[i].keyword) != Lower(opts[j].keyword)
  }

  /** Two keywords of the same named kind are the same keyword up to case. */
  lemma SameKind(a: string, b: string)
    requires KindOf(a) == KindOf(b) != Plain
    ensures Lower(a) == Lower(b)
  {
    ClassifyChain(a);
    ClassifyChain(b);
  }

  /** Without repeated keywords, each named kind is set at most once; in particular
      there is at most one `host`. */
  lemma {:induction false} DistinctOneHost(opts: seq<ConninfoOption>, kind: Kind)
    requires DistinctKeywords(opts)
    requires kind != Plain
    ensures Count(opts, kind) <= 1
    decreases |opts|
  {
    if opts != [] {
      var init := opts[..|opts| - 1];
      DistinctOneHost(init, kind);
      if Is(opts[|opts| - 1], kind) {
        CountPositive(init, kind);
        LastValueFound(init, kind);
        if LastValue(init, kind).Some? {
          var i :| 0 <= i < |init| && Is(init[i], kind);
          assert init[i] == opts[i];
          SameKind(opts[i].keyword, opts[|opts| - 1].keyword);
          assert false;
        }
      }
    }
  }

  /** One more option: how the copied slots and the last values grow. */
  lemma PrefixStep(opts: seq<ConninfoOption>, i: nat, family: Family, kind: Kind)
    requires i < |opts|
    ensures PassThrough(opts[..i + 1], family) == PassThrough(opts[..i], family)
      + (if Passes(opts[i], family) then [Param(opts[i].keyword, opts[i].val)] else [])
    ensures LastValue(opts[..i + 1], kind) == if Is(opts[i], kind) then opts[i].val else LastValue(opts[..i], kind)
  {
    assert opts[..i + 1][..i] == opts[..i];
  }

  /** One iteration of the fill loop: a copied option takes the next slot. */
  method PlaceOption(a: array<Slot>, arg: nat, opt: ConninfoOption, family: Family) returns (next: nat)
    requires arg < a.Length
    requires Passes(opt, family) ==> arg + 1 < a.Length
    modifies a
    ensures next == arg + (if Passes(opt, family) then 1 else 0)
    ensures a[..next + 1] == old(a[..arg + 1]) + (if Passes(opt, family) then [Param(opt.keyword, opt.val)] else [])
  {
    next := arg;
    if Passes(opt, family) {
      next := next + 1;
      a[next] := Param(opt.keyword, opt.val);
    }
  }

  /** Slots 0 to 2, written before the loop (ngx_pq_module.c:340-352). */
  method WriteFixed(a: array<Slot>, opts: seq<ConninfoOption>, family: Family, host: Option<string>)
    requires 3 <= a.Length
    modifies a
    ensures a[..3] == Fixed(opts, family, host)
    ensures a[0] == if family == Unix then Param(HostKeyword, host) else Param(HostAddrKeyword, LastValue(opts, HostAddr))
    ensures a[1] == Param(ConnectTimeoutKeyword, Some(LastValue(opts, ConnectTimeout).GetOr(DefaultConnectTimeout)))
    ensures a[2] == Param(FallbackNameKeyword, Some(ApplicationName))
  {
    var arg := 0;
    a[arg] := if family == Unix then Param(HostKeyword, host) else Param(HostAddrKeyword, LastValue(opts, HostAddr));
    arg := arg + 1;
    a[arg] := Param(ConnectTimeoutKeyword, Some(LastValue(opts, ConnectTimeout).GetOr(DefaultConnectTimeout)));
    arg := arg + 1;
    a[arg] := Param(FallbackNameKeyword, Some(ApplicationName));
  }

  /** One iteration of the loop over the options: option `i` is copied into the next
      slot when it passes, and a copied `client_encoding` is remembered. */
  method FillStep(a: array<Slot>, opts: seq<ConninfoOption>, family: Family, i: nat, arg: nat,
                  clientEncoding: Option<string>, ghost fixed: seq<Slot>)
    returns (arg': nat, clientEncoding': Option<string>)
    requires i < |opts|
    requires 3 + |PassThrough(opts, family)| < a.Length
    requires arg == 2 + |PassThrough(opts[..i], family)|
    requires |PassThrough(opts[..i], family)| <= |PassThrough(opts, family)|
    requires a[..arg + 1] == fixed + PassThrough(opts[..i], family)
    requires clientEncoding == LastValue(opts[..i], ClientEncoding)
    modifies a
    ensures arg' == 2 + |PassThrough(opts[..i + 1], family)|
    ensures |PassThrough(opts[..i + 1], family)| <= |PassThrough(opts, family)|
    ensures a[..arg' + 1] == fixed + PassThrough(opts[..i + 1], family)
    ensures clientEncoding' == LastValue(opts[..i + 1], ClientEncoding)
  {
    PrefixStep(opts, i, family, ClientEncoding);
    PassThroughGrows(opts, i + 1, family);
    var opt := opts[i];
    arg' := PlaceOption(a, arg, opt, family);
    clientEncoding' := clientEncoding;
    if Passes(opt, family) && KindOf(opt.keyword) == ClientEncoding {
      clientEncoding' := opt.val;
    }
  }

  /** The loop over the options (ngx_pq_module.c:353-367): the copied options follow
      the first three slots, and the last `client_encoding` copied is remembered. */
  method FillOptions(a: array<Slot>, opts: seq<ConninfoOption>, family: Family)
    returns (arg: nat, clientEncoding: Option<string>)
    requires 3 + |PassThrough(opts, family)| < a.Length
    modifies a
    ensures arg == 2 + |PassThrough(opts, family)|
    ensures a[..arg + 1] == old(a[..3]) + PassThrough(opts, family)
    ensures clientEncoding == LastValue(opts, ClientEncoding)
  {
    ghost var fixed := a[..3];
    arg := 2;
    clientEncoding := None;
    var i := 0;
    PassThroughGrows(opts, 0, family);
    while i < |opts|
      invariant 0 <= i <= |opts|
      invariant arg == 2 + |PassThrough(opts[..i], family)|
      invariant |PassThrough(opts[..i], family)| <= |PassThrough(opts, family)|
      invariant a[..arg + 1] == fixed + PassThrough(opts[..i], family)
      invariant clientEncoding == LastValue(opts[..i], ClientEncoding)
    {
      arg, clientEncoding := FillStep(a, opts, family, i, arg, clientEncoding, fixed);
      i := i + 1;
    }
    assert opts[..i] == opts;
  }

  /** The fill (ngx_pq_module.c:338-370) writing into an allocation of `count` slots.
      Given room for the layout, every write lands inside the allocation, the written
      prefix is the layout, and the remembered client encoding is the value of the last
      `client_encoding` option. */
  method FillSlots(opts: seq<ConninfoOption>, family: Family, host: Option<string>, count: nat)
    returns (slots: seq<Slot>, clientEncoding: Option<string>)
    requires |Layout(opts, family, host)| <= count
    ensures slots == Layout(opts, family, host)
    ensures clientEncoding == LastValue(opts, ClientEncoding)
  {
    var a := new Slot[count](_ => End);
    WriteFixed(a, opts, family, host);
    var arg;
    arg, clientEncoding := FillOptions(a, opts, family);
    ghost var written := a[..arg + 1];
    arg := arg + 1;
    a[arg] := End;
    assert a[..arg + 1] == written + [End];
    slots := a[..arg + 1];
  }
}

=== FILE: template.dfy ===
/** The query-text scanner of `pq_prepare` / `pq_query`: one left-to-right pass that
    splits the text into literal runs and the variable names that follow a `$`.

    The C code keeps two cursors into the text, `n` (start of the current run) and
    `s` (scan position). Here `LexRun(t, s)` scans `t`, the text from `n` onward, with
    `s` counted from `n`; whenever the C code moves `n`, the model recurses on the
    rest of the text. Reading `*s` at the end of the text yields NUL in the C code, so
    the end of the text is "not a letter" and "not `$`". */
module Template {
  import opened Chars

  /** A run of literal text, or a variable name (without its `$`). `lookup` says
      whether the scanner asks for the name's request-variable index, which it does
      unless the name is immediately followed by another `$`. */
  datatype Piece = Text(text: string) | Name(name: string, lookup: bool)

  function RenderPiece(x: Piece): string {
    match x
    case Text(t) => t
    case Name(n, _) => ['$'] + n
  }

  /** The text a piece sequence stands for: the pieces in order, `$` before each name. */
  function Render(p: seq<Piece>): string
    decreases |p|
  {
    if p == [] then [] else RenderPiece(p[0]) + Render(p[1..])
  }

  predicate NoDollar(t: string) {
    forall i :: 0 <= i < |t| ==> t[i] != '$'
  }

  /** At most one `$`, and only as the last byte. */
  predicate DollarOnlyLast(t: string) {
    forall i :: 0 <= i < |t| && t[i] == '$' ==> i == |t| - 1
  }

  predicate EndsWithDollar(t: string) { |t| > 0 && t[|t| - 1] == '$' }

  predicate StartsWithDollar(t: string) { |t| > 0 && t[0] == '$' }

  predicate StartsWithNameStart(t: string) { |t| > 0 && IsNameStart(t[0]) }

  predicate StartsWithNameChar(t: string) { |t| > 0 && IsNameChar(t[0]) }

  /** The end of the maximal run of name bytes that starts at `s`. */
  function NameEnd(t: string, s: nat): (e: nat)
    requires s <= |t|
    ensures s <= e <= |t|
    ensures forall k :: s <= k < e ==> IsNameChar(t[k])
    ensures e < |t| ==> !IsNameChar(t[e])
    decreases |t| - s
  {
    if s < |t| && IsNameChar(t[s]) then NameEnd(t, s + 1) else s
  }

  /** The scan loop (ngx_pq_module.c:417-446) from the start `n` of the current run. */
  function LexRun(t: string, s: nat): seq<Piece>
    requires s <= |t|
    decreases |t|, |t| - s
  {
    if s == |t| then
      // the final run is flushed only when it is non-empty
      if 0 < s then [Text(t)] else []
    else if t[s] != '$' then
      LexRun(t, s + 1)
    else if s + 1 < |t| && IsNameStart(t[s + 1]) then
      // the run before `$` is pushed even when empty, then the maximal name
      var e := NameEnd(t, s + 1);
      [Text(t[..s]), Name(t[s + 1..e], !(e < |t| && t[e] == '$'))] + LexRun(t[e..], 0)
    else
      // any other `$` closes a run that includes it
      [Text(t[..s + 1])] + LexRun(t[s + 1..], 0)
  }

  /** What the scanner accepts as a segmentation of a text: literal runs free of `$`
      except as their last byte, each run that does not end in `$` either closing the
      text or followed by a maximal name, and a run ending in `$` never followed by
      a name start. */
  predicate WellFormed(p: seq<Piece>)
    decreases |p|
  {
    if p == [] then true
    else
      match p[0]
      case Name(_, _) => false
      case Text(t) =>
        if EndsWithDollar(t) then
          && NoDollar(t[..|t| - 1])
          && !StartsWithNameStart(Render(p[1..]))
          && WellFormed(p[1..])
        else if |p| == 1 then
          |t| > 0 && NoDollar(t)
        else
          && NoDollar(t)
          && p[1].Name?
          && IsName(p[1].name)
          && !StartsWithNameChar(Render(p[2..]))
          && (p[1].lookup <==> !StartsWithDollar(Render(p[2..])))
          && WellFormed(p[2..])
  }

  /** Scanning a whole text. */
  function Lex(t: string): (p: seq<Piece>)
    ensures Render(p) == t
    ensures WellFormed(p)
  {
    LexRoundTrip(t, 0);
    LexWellFormed(t, 0);
    LexRun(t, 0)
  }

  lemma {:induction false} RenderAppend(a: seq<Piece>, b: seq<Piece>)
    ensures Render(a + b) == Render(a) + Render(b)
    decreases |a|
  {
    if a == [] {
      assert a + b == b;
    } else {
      assert (a + b)[1..] == a[1..] + b;
      RenderAppend(a[1..], b);
    }
  }

  lemma RenderOne(x: Piece)
    ensures Render([x]) == RenderPiece(x)
  {
    assert [x][1..] == [];
    assert Render([x]) == RenderPiece(x) + Render([]);
  }

  lemma RenderTwo(x: Piece, y: Piece)
    ensures Render([x, y]) == RenderPiece(x) + RenderPiece(y)
  {
    assert [x, y][1..] == [y];
    RenderOne(y);
    assert Render([x, y]) == RenderPiece(x) + Render([y]);
  }

  lemma RenderCons(p: seq<Piece>)
    requires |p| > 0
    ensures Render(p) == RenderPiece(p[0]) + Render(p[1..])
  {
  }

  /** Round trip: the pieces, with `$` re-inserted before each name, give back the text. */
  lemma {:induction false} LexRoundTrip(t: string, s: nat)
    requires s <= |t|
    ensures Render(LexRun(t, s)) == t
    decreases |t|, |t| - s
  {
    if s == |t| {
      if 0 < s {
        RenderOne(Text(t));
      }
    } else if t[s] != '$' {
      LexRoundTrip(t, s + 1);
    } else if s + 1 < |t| && IsNameStart(t[s + 1]) {
      var e := NameEnd(t, s + 1);
      LexRoundTrip(t[e..], 0);
      NameStepRenders(t, s, e, !(e < |t| && t[e] == '$'), LexRun(t[e..], 0));
    } else {
      LexRoundTrip(t[s + 1..], 0);
      RenderAppend([Text(t[..s + 1])], LexRun(t[s + 1..], 0));
      RenderOne(Text(t[..s + 1]));
      assert t == t[..s + 1] + t[s + 1..];
    }
  }

  lemma NameStepRenders(t: string, s: nat, e: nat, lookup: bool, rest: seq<Piece>)
    requires s < e <= |t|
    requires t[s] == '$'
    requires Render(rest) == t[e..]
    ensures Render([Text(t[..s]), Name(t[s + 1..e], lookup)] + rest) == t
  {
    var head := [Text(t[..s]), Name(t[s + 1..e], lookup)];
    RenderAppend(head, rest);
    RenderTwo(head[0], head[1]);
    assert RenderPiece(head[1]) == ['$'] + t[s + 1..e];
    assert t[..s] + (['$'] + t[s + 1..e]) == t[..e];
    assert Render(head) == t[..e];
    assert t[..e] + t[e..] == t;
  }

  lemma {:induction false} LexWellFormed(t: string, s: nat)
    requires s <= |t|
    requires NoDollar(t[..s])
    ensures WellFormed(LexRun(t, s))
    decreases |t|, |t| - s
  {
    if s == |t| {
      if 0 < s {
        assert t[..s] == t;
      }
    } else if t[s] != '$' {
      assert t[..s + 1] == t[..s] + [t[s]];
      LexWellFormed(t, s + 1);
    } else if s + 1 < |t| && IsNameStart(t[s + 1]) {
      var e := NameEnd(t, s + 1);
      assert t[e..][..0] == [];
      LexWellFormed(t[e..], 0);
      NameStepWellFormed(t, s, e);
    } else {
      assert t[s + 1..][..0] == [];
      LexWellFormed(t[s + 1..], 0);
      DollarStepWellFormed(t, s);
    }
  }

  lemma NameStepWellFormed(t: string, s: nat, e: nat)
    requires s + 1 < |t| && t[s] == '$' && IsNameStart(t[s + 1])
    requires NoDollar(t[..s])
    requires e == NameEnd(t, s + 1)
    requires WellFormed(LexRun(t[e..], 0))
    ensures WellFormed([Text(t[..s]), Name(t[s + 1..e], !(e < |t| && t[e] == '$'))] + LexRun(t[e..], 0))
  {
    var rest := LexRun(t[e..], 0);
    var p := [Text(t[..s]), Name(t[s + 1..e], !(e < |t| && t[e] == '$'))] + rest;
    assert p[2..] == rest;
    LexRoundTrip(t[e..], 0);
    assert IsName(t[s + 1..e]);
  }

  lemma DollarStepWellFormed(t: string, s: nat)
    requires s < |t| && t[s] == '$' && !(s + 1 < |t| && IsNameStart(t[s + 1]))
    requires NoDollar(t[..s])
    requires WellFormed(LexRun(t[s + 1..], 0))
    ensures WellFormed([Text(t[..s + 1])] + LexRun(t[s + 1..], 0))
  {
    var rest := LexRun(t[s + 1..], 0);
    var p := [Text(t[..s + 1])] + rest;
    assert p[1..] == rest;
    assert t[..s + 1][..s] == t[..s];
    LexRoundTrip(t[s + 1..], 0);
  }

  /** Bytes of a literal run do not change where the run is cut. */
  lemma {:induction false} SkipLiteral(x: string, i: nat, j: nat)
    requires i <= j <= |x|
    requires NoDollar(x[i..j])
    ensures LexRun(x, i) == LexRun(x, j)
    decreases j - i
  {
    if i < j {
      assert x[i] == x[i..j][0];
      assert x[i + 1..j] == x[i..j][1..];
      SkipLiteral(x, i + 1, j);
    }
  }

  lemma {:induction false} NameEndAt(x: string, a: nat, b: nat)
    requires a <= b <= |x|
    requires forall k :: a <= k < b ==> IsNameChar(x[k])
    requires b < |x| ==> !IsNameChar(x[b])
    ensures NameEnd(x, a) == b
    decreases b - a
  {
    if a < b {
      NameEndAt(x, a + 1, b);
    }
  }

  /** The segmentation is unique: every well-formed piece sequence is what the
      scanner produces for its own text. With `Lex`'s contract this makes `Lex` the
      one well-formed segmentation of each text. */
  lemma {:induction false} LexUnique(p: seq<Piece>)
    requires WellFormed(p)
    ensures Lex(Render(p)) == p
    decreases |p|
  {
    if p != [] {
      var t := p[0].text;
      if EndsWithDollar(t) {
        LexUnique(p[1..]);
        UniqueAfterDollar(p);
      } else if |p| == 1 {
        UniqueLastRun(p);
      } else {
        LexUnique(p[2..]);
        UniqueBeforeName(p);
      }
    }
  }

  lemma UniqueAfterDollar(p: seq<Piece>)
    requires |p| > 0 && p[0].Text? && EndsWithDollar(p[0].text)
    requires WellFormed(p)
    requires LexRun(Render(p[1..]), 0) == p[1..]
    ensures LexRun(Render(p), 0) == p
  {
    var t := p[0].text;
    var x := Render(p);
    var r := Render(p[1..]);
    assert x == t + r;
    var k := |t| - 1;
    assert x[0..k] == t[..k];
    SkipLiteral(x, 0, k);
    assert x[k] == '$';
    assert k + 1 < |x| ==> x[k + 1] == r[0];
    assert x[..k + 1] == t;
    assert x[k + 1..] == r;
    assert p == [Text(t)] + p[1..];
  }

  lemma UniqueLastRun(p: seq<Piece>)
    requires |p| == 1 && p[0].Text? && !EndsWithDollar(p[0].text)
    requires WellFormed(p)
    ensures LexRun(Render(p), 0) == p
  {
    var t := p[0].text;
    RenderOne(p[0]);
    assert p == [Text(t)];
    assert Render(p) == t;
    assert t[0..|t|] == t;
    SkipLiteral(t, 0, |t|);
  }

  lemma UniqueBeforeName(p: seq<Piece>)
    requires |p| > 1 && p[0].Text? && !EndsWithDollar(p[0].text)
    requires WellFormed(p)
    requires LexRun(Render(p[2..]), 0) == p[2..]
    ensures LexRun(Render(p), 0) == p
  {
    var t := p[0].text;
    var nm := p[1].name;
    var r := Render(p[2..]);
    var x := Render(p);
    NameStepText(p);
    assert x == t + (['$'] + nm) + r;
    assert x[0..|t|] == t;
    SkipLiteral(x, 0, |t|);
    var e := |t| + 1 + |nm|;
    NameInText(t, nm, r, x);
    assert e < |x| ==> x[e] == r[0];
    assert p == [Text(t), Name(nm, p[1].lookup)] + p[2..];
  }

  /** Where the scanner finds a name rendered after a literal run. */
  lemma NameInText(t: string, nm: string, r: string, x: string)
    requires x == t + (['$'] + nm) + r
    requires IsName(nm) && !StartsWithNameChar(r)
    ensures x[|t|] == '$' && IsNameStart(x[|t| + 1])
    ensures NameEnd(x, |t| + 1) == |t| + 1 + |nm|
    ensures x[..|t|] == t && x[|t| + 1..|t| + 1 + |nm|] == nm && x[|t| + 1 + |nm|..] == r
  {
    var e := |t| + 1 + |nm|;
    assert x[|t|] == '$';
    assert x[|t| + 1] == nm[0];
    forall k | |t| + 1 <= k < e
      ensures IsNameChar(x[k])
    {
      assert x[k] == nm[k - |t| - 1];
    }
    assert e < |x| ==> x[e] == r[0];
    NameEndAt(x, |t| + 1, e);
    assert x[..|t|] == t;
    assert x[|t| + 1..e] == nm;
    assert x[e..] == r;
  }

  lemma NameStepText(p: seq<Piece>)
    requires |p| > 1 && p[0].Text? && p[1].Name?
    ensures Render(p) == p[0].text + (['$'] + p[1].name) + Render(p[2..])
  {
    assert p[1..][1..] == p[2..];
    RenderCons(p);
    RenderCons(p[1..]);
  }

  /** A text without `$` is one literal run, or nothing when it is empty. */
  lemma LexNoDollar(t: string)
    requires NoDollar(t)
    ensures Lex(t) == if t == [] then [] else [Text(t)]
  {
    assert t[0..|t|] == t;
    SkipLiteral(t, 0, |t|);
  }

  /** The guarantees the scanner gives about the piece at position `k`. */
  predicate PieceOk(p: seq<Piece>, k: nat)
    requires k < |p|
  {
    match p[k]
    case Text(t) =>
      // at most one `$`, only last; an empty run only right before a name;
      // a run not ending in `$` is cut only by a name or by the end of the text
      && DollarOnlyLast(t)
      && (t == [] ==> k + 1 < |p| && p[k + 1].Name?)
      && (!EndsWithDollar(t) && k + 1 < |p| ==> p[k + 1].Name?)
    case Name(nm, lookup) =>
      // preceded by the run that its `$` closed; maximal; looked up unless `$` follows
      && 0 < k && p[k - 1].Text? && !EndsWithDollar(p[k - 1].text)
      && IsName(nm)
      && !StartsWithNameChar(Render(p[k + 1..]))
      && (lookup <==> !StartsWithDollar(Render(p[k + 1..])))
  }

  lemma ShiftPieceOk(p: seq<Piece>, d: nat, j: nat)
    requires d <= |p| && j < |p| - d
    requires PieceOk(p[d..], j)
    ensures PieceOk(p, d + j)
  {
    assert p[d..][j] == p[d + j];
    assert p[d..][j + 1..] == p[d + j + 1..];
    if j > 0 {
      assert p[d..][j - 1] == p[d + j - 1];
    }
    if j + 1 < |p| - d {
      assert p[d..][j + 1] == p[d + j + 1];
    }
  }

  /** Every piece of a well-formed sequence, hence of every scan, meets `PieceOk`. */
  lemma {:induction false} WellFormedPieces(p: seq<Piece>)
    requires WellFormed(p)
    ensures forall k :: 0 <= k < |p| ==> PieceOk(p, k)
    decreases |p|
  {
    if p != [] {
      var t := p[0].text;
      if EndsWithDollar(t) {
        var q := p[1..];
        WellFormedPieces(q);
        forall k | 0 <= k < |p|
          ensures PieceOk(p, k)
        {
          if k > 0 {
            assert PieceOk(q, k - 1);
            ShiftPieceOk(p, 1, k - 1);
          } else {
            assert forall i :: 0 <= i < |t| - 1 ==> t[i] == t[..|t| - 1][i];
          }
        }
      } else if |p| == 1 {
      } else {
        var q := p[2..];
        WellFormedPieces(q);
        assert p[1..][1..] == q;
        forall k | 0 <= k < |p|
          ensures PieceOk(p, k)
        {
          if k > 1 {
            assert PieceOk(q, k - 2);
            ShiftPieceOk(p, 2, k - 2);
          } else if k == 1 {
            assert p[k + 1..] == q;
          }
        }
      }
    }
  }
}
